=== FILE: README.md ===
# xorm builder: the pagination engine and the SELECT renderer, in Dafny

This project models the core of the Go SQL builder `xorm/builder`.

The centre is `(*Builder).limitWriteTo`, the pagination engine. A SELECT or
UNION builder can carry a limitation: offset, count, dialect name and, for
MSSQL, a primary key. The engine:

- checks the limitation;
- erases it from the builder and empties the writer;
- rewrites the request according to the dialect:
  - Oracle: one or two `ROWNUM` wrapper levels;
  - SQLite/MySQL/Postgres: a ` LIMIT n [OFFSET o]` suffix;
  - MSSQL: `TOP n` wrappers and a `NOT IN` anti-join.

The SELECT renderer is modelled too: columns, FROM of a table, a sub-query
or a UNION, WHERE, GROUP BY, HAVING and ORDER BY, together with the errors
it reports. The engine renders its wrapper queries through that renderer.
The test cases of `TestBuilder_Select`, `TestBuilderSelectGroupBy`,
`TestBuilderSelectOrderBy` and `TestBuilder_From` are proved as lemmas.

Modules, one file each:

- `Text` (text.dfy): white-space trimming, ASCII lower/upper case, `strings.Join`, counting `?` placeholders, Go's `int` addition on a 64-bit platform and `fmt`'s decimal printing.
- `Builders` (builder.dfy): the builder tree and the fluent constructors (`Select`, `From`, `Where`, `GroupBy`, `Having`, `OrderBy`, `Union`, `Limit`, `SetNestedFlag`, the dialect constructors). It also defines the writer (text plus positional arguments), the nesting depth of limitations, and well-formedness: every placeholder has an argument.
- `Limit` (limit.dfy): style parsing, and the rewrite as a pure plan. The plan is either a native render plus a suffix, or a wrapper query.
- `Render` (render.dfy): `WriteTo` and `LimitWriteTo`, which call each other, and the SELECT/FROM/condition/clause/UNION writers.
- `Pagination` (pagination.dfy): for each dialect, the text and arguments of a paginated render, given the render of the builder without its limitation.
- `SelectRendering` (select_rendering.dfy): the clause layout, derived tables, UNION and the error cases.
- `SelectCases` (select_cases.dfy): the concrete test cases.

Termination of the mutual recursion is proved, not assumed. The rewrite
never puts a limitation back (`Limit.RewriteDepth`). So each nested render
works on a builder whose limitations nest less deeply.

Two details of the code as written:

- Oracle filters the wrapped rows by `at.ROWNUM`. It does not filter by the `RN` alias the inner query adds.
- The outer MSSQL level reads from the inner `TOP n+o` level, and its `NOT IN` sub-query is that same level. It does not read from the original source. `Pagination.MsSqlExcludesOwnSource` states this.

## Model

| member | source | states |
|---|---|---|
| Render.LimitWriteTo | builder_limit.go:11-90 | The kind is checked before anything else. Without a limitation the builder and writer are unchanged. A limitation with offset < 0 or count <= 0 is refused and leaves both untouched. An accepted limitation is always erased. On error the model leaves the writer empty; in the code that holds for the engine's own refusals, not for a failing wrapper render (see Left out). The native dialects never report an error. Balanced input gives balanced output. |
| Limit.ParseStyle | builder_limit.go:32 | A style is recognised exactly when its trimmed, lower-cased form is one of the five dialect names. The dialect found is the one whose name is that form. |
| Pagination.StyleMatching | builder_limit.go:32 | Two spellings with the same trimmed, lower-cased form select the same arm. A spelling selects a dialect if and only if its normal form is that dialect's name. |
| Text.NormalizeIdempotent | builder_limit.go:32 | Trimming and lower-casing a second time changes nothing. |
| Text.BlankIffAllSpace | builder_limit.go:68 | `strings.TrimSpace(pk) == ""` holds exactly when every character of the key is white space. |
| Limit.Cleared | builder_limit.go:22-34 | The builder the engine leaves behind: apart from its select list it is the builder without its limitation, and `ROWNUM RN` is appended to the select list for Oracle only. Erasing the limitation lowers the nesting depth of limitations by exactly one, which is the measure the engine's recursion descends. |
| Limit.Rewrite | builder_limit.go:32-86 | A first page (offset 0) of a known style is always planned: failures need an unknown style or an offset. A plan never carries the limitation it consumed. A wrapper is a SELECT over a derived table that carries none either. The native plan renders the cleared builder in place with the LIMIT suffix. |
| Limit.SuffixReadsBack | builder_limit.go:54-58 | The LIMIT suffix reads back as the count and the offset, so no two limitations share a suffix. Reading a suffix without an OFFSET part gives offset 0; that the part is left out exactly for offset 0 is stated by `Pagination.NativePage`. |
| Limit.TopReadsBack | builder_limit.go:65 | The `TOP n cols` head reads back as the row count n and the comma-joined column list. |
| Limit.OracleFirst | builder_limit.go:36-37 | The Oracle first-page wrapper adds no level of limitation: its nesting depth of limitations is that of the cleared builder. Over a well-formed builder with placeholder-free columns it is well-formed, its one new placeholder `at.ROWNUM<=?` being bound to n. It reads from the cleared builder aliased `at`. |
| Limit.OracleInner | builder_limit.go:39-40 | The inner Oracle level keeps the depth of the cleared builder and is well-formed when the builder and its columns are: its `at.ROWNUM<=?` is bound to the Go `int` sum, which is o+n whenever that fits in 64 bits. |
| Limit.OracleWindow | builder_limit.go:38-47 | The two Oracle levels together keep the depth of the cleared builder, so rendering them never re-enters the engine for the same request. They are well-formed when the builder and its columns are: each level binds its own placeholder. |
| Limit.MsSqlFirst | builder_limit.go:60-66 | The MSSQL first-page wrapper keeps the depth of the cleared builder and adds no placeholder: it is well-formed when the builder and its columns are. Its one column is the `TOP n` head, over `*` for an empty list. |
| Limit.MsSqlInner | builder_limit.go:71-72 | The inner MSSQL level keeps the depth of the cleared builder and is well-formed when the builder, its columns and the key are free of placeholders of their own. |
| Pagination.MsSqlWindowNeedsNestedFlag | builder_limit.go:78-79 | Cleared of its nested flag, the MSSQL window fails with ErrUnnamedDerivedTable, because it reads from an unaliased derived table under a valid filter. So the nested-flag rule of the renderer alone decides whether an MSSQL offset page renders. |
| Limit.MsSqlWindow | builder_limit.go:71-79 | The MSSQL window holds the inner level twice, as its source and under `NOT IN`. Its depth is still that of the cleared builder, and it is well-formed when the builder, its columns and the key are. The `NOT IN` sub-query is the very query it reads from. |
| Builders.Conj | builder_limit.go:79 | `a.And(b)`: the result is a valid condition exactly when one operand is, and an invalid operand leaves the other unchanged. |
| Limit.RewriteErrors | builder_limit.go:32-86 | The rewrite fails exactly for an unknown style, an Oracle offset over an empty select list, or an MSSQL offset without a key or over an empty select list. The key is checked before the select list. Every other failure is ErrNotSupportType. |
| Limit.RewriteNative | builder_limit.go:51-58 | Exactly the SQLite/MySQL/Postgres styles keep the builder itself, cleared of its limitation, as the query to render. |
| Limit.RewriteDepth | builder_limit.go:32-83 | The query the plan renders carries no limitation, and its limitations nest exactly as deep as those of the cleared builder. So the engine never re-enters itself on the same request. |
| Limit.RewriteWellFormed | builder_limit.go:32-83 | The wrapper over a well-formed builder is well-formed: every placeholder it adds comes with its argument. The native suffix contains no placeholder. |
| Pagination.InvalidLimitFails | builder_limit.go:18-20 | A negative offset or a non-positive count is refused for every style. |
| Pagination.UnknownStyleFails | builder_limit.go:84-85 | A style that names none of the five dialects gives ErrNotSupportType. |
| Pagination.LimitResetsWriter | builder_limit.go:24-28 | Once the limitation is accepted, the outcome does not depend on what the writer held before. |
| Pagination.NativePage | builder_limit.go:51-58 | Native dialects: the render of the cleared builder followed by ` LIMIT n`, with ` OFFSET o` only when o > 0. The arguments are the builder's own. |
| Pagination.NativeStep | builder_limit.go:51-58 | Native dialects: the engine appends the suffix to the render of the cleared builder. The arguments are that render's own. A render that fails contributes no text (see Left out). |
| Pagination.NativeDropsError | builder_limit.go:52 | Native dialects: when the builder cannot be rendered, the engine ignores that error and reports success with the suffix. Only the suffix is modelled (see Left out). |
| Pagination.WrappedStep | builder_limit.go:50 | Oracle and MSSQL: the result of the engine is the render of the wrapper query, including its error. |
| Pagination.OracleInnerColumns | builder_limit.go:34 | On the Oracle arm the builder's select list gains `ROWNUM RN` as its last column: its column text is the original text followed by `,ROWNUM RN`, or `ROWNUM RN` alone over an empty list. A SELECT writes this text; a UNION writes no select list, so there the column is added but not rendered (see Left out). |
| Pagination.OracleFirstPage | builder_limit.go:35-37 | Oracle, offset 0: `SELECT cols FROM (<builder>) at WHERE at.ROWNUM<=?`, with the builder's arguments followed by the count. |
| Pagination.OracleWindowPage | builder_limit.go:38-47 | Oracle, offset o > 0: the inner level `at` keeps ROWNUM <= o+n, using Go's wrapping `int` sum, and adds the RN column. The outer level `att` keeps RN > o. The arguments are the builder's, then o+n, then o. |
| Pagination.OracleEmptySelectsFails | builder_limit.go:42-44 | Oracle with an offset over an empty select list gives ErrNotSupportType. |
| Pagination.TopDerived | builder_limit.go:65-66 | `TOP n cols` over an unaliased, nested derived table renders as `SELECT TOP n cols FROM (<inner>)`, with the inner arguments. |
| Pagination.MsSqlFirstPage | builder_limit.go:60-66 | MSSQL, offset 0: `SELECT TOP n cols FROM (<builder>)`, with `*` for an empty select list. The arguments are the builder's own. |
| Pagination.MsSqlOffsetFails | builder_limit.go:67-76 | MSSQL with an offset: a blank key gives the missing-key error. Otherwise an empty select list gives ErrNotSupportType. |
| Pagination.MsSqlWindowPage | builder_limit.go:71-79 | MSSQL, offset o > 0: the full text of the two-level query. Its filter is the builder's own condition as an AND operand followed by `pk NOT IN (<inner level>)`. The inner level's arguments occur twice: the condition's lie between them when there is one. |
| Pagination.MsSqlExcludesOwnSource | builder_limit.go:71-79 | The outer MSSQL level reads from its inner level, and its `NOT IN` excludes against that same query. That query lists the columns and the key, not the key alone. |
| Text.Wrap64 | builder_limit.go:40 | `offset + limitN` as Go's `int` on a 64-bit platform: the result equals the sum modulo 2^64 and is the sum itself when that fits. |
| Text.IntRoundTrip | builder_limit.go:54-57 | The decimal text that `fmt` prints for an integer parses back to the integer, so no two counts print alike. |
| Text.JoinSnoc | builder_limit.go:72 | Appending the key to a non-empty select list appends `,key` to the joined list. |
| Render.WriteTo | builder_limit.go:50 | Every placeholder in the render of a well-formed builder has its argument. |
| Render.SelectWriteTo | builder_select_test.go:14-59 | Every placeholder in the SELECT render of a well-formed builder has its argument. |
| Render.FromWriteTo | builder_select_test.go:61-130 | Every placeholder in the FROM part of a well-formed builder, derived tables included, has its argument. |
| Render.CondWriteTo | builder_select_test.go:20-23 | Every placeholder in the render of a well-formed condition has its argument. |
| Render.ClauseWriteTo | builder_select_test.go:31-57 | Every placeholder in a HAVING or ORDER BY clause behind a plain keyword has its argument. |
| Render.UnionWriteTo | builder_select_test.go:86-92 | Every placeholder in the render of the UNION members of a well-formed builder has its argument. |
| SelectRendering.ClauseLayout | builder_select_test.go:30-59 | A SELECT is laid out in this order: head, FROM, WHERE, GROUP BY, HAVING, ORDER BY. Arguments follow the same order, so each placeholder meets its own argument. |
| SelectRendering.TableSelect | builder_select_test.go:14-23 | `SELECT cols FROM t`, then ` WHERE <cond>` when the filter is valid. The arguments are the condition's. |
| SelectRendering.RawClause | builder_select_test.go:31-33 | A HAVING or ORDER BY given as text is written after its keyword, or omitted when the text is empty. |
| SelectRendering.CondClause | builder_select_test.go:37-40 | A HAVING given as a condition writes the condition after the keyword and binds its arguments. |
| SelectRendering.UnsupportedClauseFails | builder_select_test.go:43-44 | A HAVING or ORDER BY of any other type is an error. |
| SelectRendering.DerivedSelect | builder_select_test.go:68-84 | A derived table is written `(<inner>)` followed by its alias, if any. The inner arguments come before those of the outer filter. |
| SelectRendering.UnionStep | builder_select_test.go:86-92 | In a UNION, the first member is opened by `(` and each later one by ` UNION <KEYWORD> (`. Each member's text and arguments come before those of the members after it. |
| SelectRendering.UnionOfTwo | builder_select_test.go:86-92 | `(<a>) UNION <KEYWORD> (<b>)`, with a's arguments followed by b's. |
| SelectRendering.NoTableNameFails | builder_select_test.go:25-27 | A SELECT without a source gives ErrNoTableName. |
| SelectRendering.UnnamedDerivedTableFails | builder_select_test.go:75-78 | An unaliased, non-nested derived table under a filter gives ErrUnnamedDerivedTable. |
| SelectRendering.UnexpectedSubQueryFails | builder_select_test.go:101-109 | A derived table that is not a SELECT or UNION gives ErrUnexpectedSubQuery. |
| SelectRendering.InconsistentDialectFails | builder_select_test.go:111-115 | Outer and inner dialects that are both set and differ give ErrInconsistentDialect. |
| SelectRendering.DialectIrrelevant | builder_select_test.go:117-129 | A consistent dialect does not change the render: it equals the render with the dialect unset. |
| SelectCases.SelectPlain | builder_select_test.go:15-18 | `SELECT c, d FROM table1` with no arguments. |
| SelectCases.SelectWhere | builder_select_test.go:20-23 | `SELECT c, d FROM table1 WHERE a=?` with arguments [1]. |
| SelectCases.SelectWithoutTable | builder_select_test.go:25-27 | No table gives ErrNoTableName. |
| SelectCases.GroupByHavingText | builder_select_test.go:31-34 | `SELECT c FROM table1 GROUP BY c HAVING count(c)=1` with no arguments. |
| SelectCases.GroupByHavingCond | builder_select_test.go:37-40 | `... HAVING count(c)=?` with arguments [1]. |
| SelectCases.HavingUnsupported | builder_select_test.go:43-44 | HAVING given an integer is an error. |
| SelectCases.OrderByText | builder_select_test.go:48-51 | `SELECT c FROM table1 ORDER BY c DESC` with no arguments. |
| SelectCases.OrderByExpr | builder_select_test.go:54-57 | ORDER BY an expression writes it verbatim and binds its one argument. |
| SelectCases.FromTable | builder_select_test.go:63-66 | `SELECT c FROM table1` with no arguments. |
| SelectCases.FromSubAliased | builder_select_test.go:69-73 | An aliased sub-query under a filter: inner text inside parentheses, then the alias and the outer WHERE. The arguments are [1, 1]. |
| SelectCases.FromSubUnaliasedFiltered | builder_select_test.go:76-78 | An unaliased sub-query under a filter gives ErrUnnamedDerivedTable. |
| SelectCases.FromSubUnaliased | builder_select_test.go:81-84 | An unaliased sub-query without a filter is accepted. The arguments are [1]. |
| SelectCases.FromUnionAliased | builder_select_test.go:87-92 | An aliased UNION ALL of two selects, under a filter. The arguments are [1, 2, 1]. |
| SelectCases.FromUnionUnaliased | builder_select_test.go:95-99 | The same UNION without an alias gives ErrUnnamedDerivedTable. |
| SelectCases.FromInsert | builder_select_test.go:102-104 | An INSERT as a derived table gives ErrUnexpectedSubQuery. |
| SelectCases.FromDelete | builder_select_test.go:107-109 | A DELETE as a derived table gives ErrUnexpectedSubQuery. |
| SelectCases.FromOtherDialect | builder_select_test.go:112-115 | A MySQL query over an Oracle sub-query gives ErrInconsistentDialect. |
| SelectCases.FromSameDialect | builder_select_test.go:118-122 | MySQL over MySQL renders as if no dialect were set. The arguments are [1, 1]. |
| SelectCases.FromDialectUnset | builder_select_test.go:125-129 | MySQL over a sub-query without a dialect is accepted. The arguments are [1, 1]. |

## Left out

- builder_select.go, the SELECT writer, is not part of this model. The renderer follows these rules. The clause order is the one the tests show; every other rule is assumed, and each says what depends on it:
  - columns are joined with ",", and an empty list is written `*`. Assumed: every test passes one column string and none an empty list. The Oracle and MSSQL texts in Pagination depend on it;
  - clauses come in the order WHERE, GROUP BY, HAVING, ORDER BY (builder_select_test.go:31-57 show GROUP BY before HAVING, and each clause after the FROM part);
  - the nested flag exempts a derived table from the alias rule. Assumed: no test sets the flag. It alone decides whether the MSSQL offset page renders or fails with ErrUnnamedDerivedTable (`Pagination.MsSqlWindowNeedsNestedFlag`). The flag may have another purpose in the real writer, since it makes no difference to the MSSQL first page or inner level, which carry no filter;
  - a dialect clash is reported only when both dialects are set. Assumed: the tests pair two set dialects and a set outer over an unset inner, never an unset outer over a set inner. That untested shape is every Oracle and MSSQL wrapper: a fresh SELECT without dialect over a builder that keeps its own. So this rule alone decides that a page of a builder made with `Oracle()` or `MsSql()` renders rather than failing with ErrInconsistentDialect;
  - assumed, since no test carries a limitation: a SELECT or UNION that carries a limitation is handed to the engine before anything of it is rendered, with an empty writer. So the engine's reset never discards text, and a limited SELECT whose cleared form cannot be rendered still reaches the engine: `Select(["c"]).Limit(Limitation(0, 10, "mysql", ""))` renders as ` LIMIT 10`;
  - assumed, for the same reason: a nested builder (derived table, UNION member, `NOT IN` sub-query) renders into a writer of its own, whose text and arguments are then spliced into the parent's. So the reset a nested limitation causes erases only the nested render, never the text the parent has already written;
  - a UNION writes only its members, not a select list of its own. Assumed: builder_union.go is not part of this model. So the `ROWNUM RN` that builder_limit.go:34 appends to a limited UNION's select list never reaches the text, and the outer `att.RN>?` level of an Oracle window over a UNION names a column the inner text lacks.
- The INSERT, UPDATE and DELETE writers are not modelled. Rendering such a builder at top level gives a dedicated error.
- Conditions are modelled only as far as the engine and the tests use them: `Eq`, `Lte`, `Gt`, `Expr`, `NotIn` over a sub-query, and `And`.
- The values of `core.ORACLE`, `core.MSSQL` and the others come from the go-xorm/core package. They are taken to be `oracle`, `sqlite3`, `mysql`, `postgres` and `mssql`.
- `strings.TrimSpace` is modelled with Go's full `unicode.IsSpace` set (`Text.IsSpace`). `strings.ToLower` in the style switch and `strings.ToUpper` of the UNION keyword (`Render.UnionWriteTo`) change ASCII letters only: other letters keep their case. So a style such as `SQL\u0130TE3`, which Go lowercases to `sqlite3` (U+0130 maps to `i`), is not recognised by the model.
- Limit.ParseStyle: it recognises a style after ASCII-only lower-casing, so it misses the non-ASCII spellings named on the line above.
- The engine asserts its writer to be a `*BytesWriter` (builder_limit.go:26) and panics for any other `Writer`. The model's writer stands for a `*BytesWriter` only.
- Go's `int` is 32 or 64 bits wide depending on the platform. The model assumes a 64-bit platform: the Limitation fields are 64-bit (`Int64`) and `offset + limitN` at builder_limit.go:40 and :71 wraps at 2^64 (`Text.Wrap64`). On a 32-bit platform the fields are narrower and the sum wraps at 2^32.
- Text written to the writer before an error is not modelled. A render that fails returns only the error, and callers are expected to discard partial text.
- Render.LimitWriteTo: when the wrapper render fails at builder_limit.go:50 or :83, the code leaves that render's partial text in the writer. The model returns the error with an empty writer.
- Pagination.NativeStep: when the render of the cleared builder fails, the code at builder_limit.go:52 keeps the partial text that render wrote and appends the suffix after it. The model keeps no partial text, so its result is the suffix alone.
- Pagination.NativeDropsError: the same: the success it states carries only the suffix, not the partial text the failed render left in front of it.
- Go slice aliasing is not modelled: `append(selects, …)` could share a backing array with the builder's own select list, and values stand in for pointers.
- Oracle's `From("at", b)` takes the alias first in this version of the code. The model's `FromQuery(query, alias)` fixes one argument order.
- Render.SelectWriteTo: its contract states only that placeholders are balanced. The clause layout and the errors are stated by `SelectRendering.ClauseLayout`, `SelectRendering.TableSelect` and the error lemmas.
- Render.FromWriteTo: its contract states only that placeholders are balanced. Table and derived-table text is stated by `SelectRendering.TableSelect` and `SelectRendering.DerivedSelect`.
- Render.CondWriteTo: its contract states only that placeholders are balanced. Condition text is stated case by case in `SelectCases` and the Pagination lemmas.
- Render.ClauseWriteTo: its contract states only that placeholders are balanced. Clause text is stated by `SelectRendering.RawClause` and `SelectRendering.CondClause`.
- Render.UnionWriteTo: its contract states only that placeholders are balanced. Member text is stated by `SelectRendering.UnionStep` and `SelectRendering.UnionOfTwo`.
- Render.WriteTo: its contract states only that placeholders are balanced. The full text is stated per case by the SelectRendering and Pagination lemmas. Its dispatch of a limited query to the engine, and the writers of its own that nested builders get, follow the last two renderer rules above, since builder.go and builder_select.go are not part of this model.

=== FILE: builder.dfy ===
/** The statement descriptor the pagination engine consumes and produces:
    a SELECT/UNION/INSERT/UPDATE/DELETE builder with its select list, source
    (table or derived table), filter, clauses, dialect tag, nested flag and
    optional limitation, plus the output writer (text and positional args). */
module Builders {
  import opened Text

  datatype Option<+T> = None | Some(value: T)

  /** A bound argument value. */
  datatype Value = Int(i: int) | Str(s: string)

  /** The package's error values, one tag each. */
  datatype Error =
    | NoTableName            // ErrNoTableName
    | UnnamedDerivedTable    // ErrUnnamedDerivedTable
    | UnexpectedSubQuery     // ErrUnexpectedSubQuery
    | InconsistentDialect    // ErrInconsistentDialect
    | NotSupportType         // ErrNotSupportType
    | LimitNotInQuery        // "LIMIT is limited in SELECT and UNION"
    | InvalidLimit           // "Unexpected offset/limitN, set a negative one?"
    | MissingPrimaryKey      // "Please assign a PK for MsSQL LIMIT operation"
    | UnsupportedClause      // a HAVING/ORDER BY argument that is neither text nor a condition
    | WriterNotModelled      // the INSERT/UPDATE/DELETE writers are outside this model

  datatype Result<+T> = Ok(value: T) | Fail(error: Error) {
    predicate IsFailure() {
      Fail?
    }

    function PropagateFailure<U>(): Result<U>
      requires Fail?
    {
      Fail(error)
    }

    function Extract(): T
      requires Ok?
    {
      value
    }
  }

  datatype Kind = SelectKind | UnionKind | InsertKind | UpdateKind | DeleteKind {
    /** The kinds that may be paginated and may stand as a derived table. */
    predicate IsQuery() {
      this == SelectKind || this == UnionKind
    }
  }

  /** Comparison operators of the conditions the engine builds (Eq, Lte, Gt). */
  datatype Op = Eq | Lte | Gt {
    function Symbol(): string {
      match this
      case Eq => "="
      case Lte => "<="
      case Gt => ">"
    }
  }

  /** A condition tree, as far as the engine and the tests use one. */
  datatype Cond =
    | NoCond                                  // the empty condition
    | Compare(col: string, op: Op, arg: Value) // Eq{col: v}, Lte{col: v}, Gt{col: v}
    | Expr(sql: string, args: seq<Value>)     // Expr(sql, args...)
    | NotIn(col: string, query: Builder)      // NotIn(col, subBuilder)
    | And(left: Cond, right: Cond)
  {
    /** Cond.IsValid: only the empty condition is invalid. */
    predicate IsValid() {
      !NoCond?
    }
  }

  /** A HAVING or ORDER BY argument: absent, plain text, a condition, or a
      value of any other type. */
  datatype Clause = Omitted | Raw(sql: string) | Condition(cond: Cond) | Unsupported

  /** The FROM part: none, a table name, or a derived table with an alias
      ("" meaning no alias). */
  datatype Source = NoSource | Table(name: string) | Derived(query: Builder, alias: string)

  /** One member of a UNION: its keyword ("" for the first, e.g. "all") and query. */
  datatype Branch = Branch(keyword: string, query: Builder)

  /** The pagination request `{offset, limitN, style, pk}`. */
  datatype Limitation = Limitation(offset: Int64, limitN: Int64, style: string, pk: string)

  datatype Builder = Builder(
    kind: Kind,
    dialect: string,           // "" when no dialect is set
    selects: seq<string>,
    source: Source,
    cond: Cond,
    groupBy: string,           // "" when absent
    having: Clause,
    orderBy: Clause,
    branches: seq<Branch>,     // members of a UNION builder
    nested: bool,
    limitation: Option<Limitation>)
  {
    function Select(cols: seq<string>): Builder {
      this.(kind := SelectKind, selects := cols)
    }

    function From(table: string): Builder {
      this.(source := Table(table))
    }

    /** A derived table: `query` under `alias` ("" for none). */
    function FromQuery(query: Builder, alias: string): Builder {
      this.(source := Derived(query, alias))
    }

    /** Where ANDs the new condition onto the existing one. */
    function Where(c: Cond): Builder {
      this.(cond := Conj(cond, c))
    }

    function GroupBy(g: string): Builder {
      this.(groupBy := g)
    }

    function Having(h: Clause): Builder {
      this.(having := h)
    }

    function OrderBy(o: Clause): Builder {
      this.(orderBy := o)
    }

    function SetNestedFlag(flag: bool): Builder {
      this.(nested := flag)
    }

    function Limit(l: Limitation): Builder {
      this.(limitation := Some(l))
    }

    /** A UNION of this builder and `other`; the union builder keeps this
        builder's dialect and select list. */
    function Union(keyword: string, other: Builder): Builder {
      if kind == UnionKind then this.(branches := branches + [Branch(keyword, other)])
      else Dialect(dialect).(kind := UnionKind, selects := selects,
                             branches := [Branch("", this), Branch(keyword, other)])
    }
  }

  /** A fresh builder in the given dialect ("" for none). */
  function Dialect(d: string): Builder {
    Builder(SelectKind, d, [], NoSource, NoCond, "", Omitted, Omitted, [], false, None)
  }

  function Select(cols: seq<string>): Builder {
    Dialect("").Select(cols)
  }

  function Insert(c: Cond): Builder {
    Dialect("").(kind := InsertKind, cond := c)
  }

  function Delete(c: Cond): Builder {
    Dialect("").(kind := DeleteKind, cond := c)
  }

  /** `a.And(b)`: invalid operands are dropped, as the And combinator does. */
  function Conj(a: Cond, b: Cond): (r: Cond)
    ensures r.IsValid() <==> a.IsValid() || b.IsValid()
    ensures !a.IsValid() ==> r == b
    ensures !b.IsValid() ==> r == a
  {
    if !a.IsValid() then b else if !b.IsValid() then a else And(a, b)
  }

  /** The text and positional arguments a render leaves in a writer. */
  datatype Writer = Writer(text: string, args: seq<Value>) {
    /** Appending to a writer: text and arguments both grow at the end. */
    function Then(w: Writer): Writer {
      Writer(text + w.text, args + w.args)
    }

    /** Every placeholder in the text has exactly one argument. */
    ghost predicate Balanced() {
      Holes(text) == |args|
    }
  }

  /** A writer holding literal, argument-free text. */
  function Lit(s: string): Writer {
    Writer(s, [])
  }

  const Empty: Writer := Writer("", [])

  lemma ThenBalanced(a: Writer, b: Writer)
    ensures a.Balanced() && b.Balanced() ==> a.Then(b).Balanced()
  {
    HolesAppend(a.text, b.text);
  }

  lemma LitBalanced(s: string)
    ensures Plain(s) ==> Lit(s).Balanced()
  {
    if Plain(s) {
      PlainHoles(s);
    }
  }

  // ---------------------------------------------------------------------
  // Limitation depth: how deeply limitations nest inside a builder. The
  // engine re-renders only builders whose depth is smaller, which is what
  // makes the rewrite terminate.
  // ---------------------------------------------------------------------

  function Max(a: nat, b: nat): nat {
    if a < b then b else a
  }

  function Depth(b: Builder): nat
    decreases b
  {
    (if b.limitation.Some? then 1 else 0) +
    Max(Max(SourceDepth(b.source), CondDepth(b.cond)),
        Max(Max(ClauseDepth(b.having), ClauseDepth(b.orderBy)), BranchesDepth(b.branches)))
  }

  function SourceDepth(s: Source): nat
    decreases s
  {
    if s.Derived? then Depth(s.query) else 0
  }

  function CondDepth(c: Cond): nat
    decreases c
  {
    match c
    case NotIn(_, q) => Depth(q)
    case And(l, r) => Max(CondDepth(l), CondDepth(r))
    case _ => 0
  }

  function ClauseDepth(c: Clause): nat
    decreases c
  {
    if c.Condition? then CondDepth(c.cond) else 0
  }

  function BranchesDepth(bs: seq<Branch>): nat
    decreases bs
  {
    if |bs| == 0 then 0 else Max(Depth(bs[0].query), BranchesDepth(bs[1..]))
  }

  lemma {:induction false} BranchDepth(bs: seq<Branch>, i: nat)
    requires i < |bs|
    ensures Depth(bs[i].query) <= BranchesDepth(bs)
  {
    if i > 0 {
      BranchDepth(bs[1..], i - 1);
    }
  }

  // ---------------------------------------------------------------------
  // Well-formedness: identifiers and literal SQL carry no placeholder of
  // their own, and every raw expression has one argument per placeholder.
  // ---------------------------------------------------------------------

  ghost predicate WellFormed(b: Builder)
    decreases b
  {
    && Plain(b.dialect)
    && (forall i :: 0 <= i < |b.selects| ==> Plain(b.selects[i]))
    && SourceWellFormed(b.source)
    && CondWellFormed(b.cond)
    && Plain(b.groupBy)
    && ClauseWellFormed(b.having)
    && ClauseWellFormed(b.orderBy)
    && BranchesWellFormed(b.branches)
    && (b.limitation.Some? ==> Plain(b.limitation.value.pk))
  }

  ghost predicate SourceWellFormed(s: Source)
    decreases s
  {
    match s
    case NoSource => true
    case Table(t) => Plain(t)
    case Derived(q, alias) => Plain(alias) && WellFormed(q)
  }

  ghost predicate CondWellFormed(c: Cond)
    decreases c
  {
    match c
    case NoCond => true
    case Compare(col, _, _) => Plain(col)
    case Expr(sql, args) => Holes(sql) == |args|
    case NotIn(col, q) => Plain(col) && WellFormed(q)
    case And(l, r) => CondWellFormed(l) && CondWellFormed(r)
  }

  ghost predicate ClauseWellFormed(c: Clause)
    decreases c
  {
    match c
    case Raw(sql) => Plain(sql)
    case Condition(x) => CondWellFormed(x)
    case _ => true
  }

  ghost predicate BranchesWellFormed(bs: seq<Branch>)
    decreases bs
  {
    |bs| > 0 ==> Plain(bs[0].keyword) && WellFormed(bs[0].query) && BranchesWellFormed(bs[1..])
  }

  lemma {:induction false} BranchWellFormed(bs: seq<Branch>, i: nat)
    requires i < |bs|
    requires BranchesWellFormed(bs)
    ensures Plain(bs[i].keyword) && WellFormed(bs[i].query)
  {
    if i > 0 {
      BranchWellFormed(bs[1..], i - 1);
    }
  }
}

=== FILE: limit.dfy ===
/** The pagination rewrite of builder_limit.go as a pure plan: which style a
    limitation names, and what the engine renders for it — the cleared
    builder followed by a literal LIMIT suffix, or a wrapper query built
    over it. */
module Limit {
  import opened Text
  import opened Builders

  /** The dialects the engine recognises. */
  datatype Style = Oracle | Sqlite | MySQL | Postgres | MsSql {
    /** The dialect's name in the go-xorm/core package. */
    function Token(): string {
      match this
      case Oracle => "oracle"
      case Sqlite => "sqlite3"
      case MySQL => "mysql"
      case Postgres => "postgres"
      case MsSql => "mssql"
    }

    /** Dialects with a native `LIMIT n OFFSET o`. */
    predicate IsNative() {
      this == Sqlite || this == MySQL || this == Postgres
    }
  }

  /** The switch on strings.ToLower(strings.TrimSpace(style)). */
  function ParseStyle(s: string): (r: Option<Style>)
    ensures r.Some? <==> Normalize(s) in {"oracle", "sqlite3", "mysql", "postgres", "mssql"}
    ensures r.Some? ==> r.value.Token() == Normalize(s)
  {
    match Normalize(s)
    case "oracle" => Some(Oracle)
    case "sqlite3" => Some(Sqlite)
    case "mysql" => Some(MySQL)
    case "postgres" => Some(Postgres)
    case "mssql" => Some(MsSql)
    case _ => None
  }

  /** The limitation the engine accepts: offset >= 0 and limitN > 0. */
  predicate Accepted(l: Limitation) {
    l.offset >= 0 && l.limitN > 0
  }

  /** What the engine renders once the limitation is accepted. */
  datatype Plan =
    | Native(query: Builder, suffix: string)   // render query, then append suffix
    | Wrapped(query: Builder)                  // render the wrapper query

  const RowNumColumn: string := "ROWNUM RN"

  /** The builder as the engine leaves it: limitation erased and, for the
      Oracle style, the ROWNUM RN column appended to its select list. */
  function Cleared(b: Builder, l: Limitation): (c: Builder)
    ensures c.limitation.None?
    // apart from its select list, the builder only loses its limitation
    ensures c.(selects := b.selects) == b.(limitation := None)
    ensures c.selects == if ParseStyle(l.style) == Some(Oracle) then b.selects + [RowNumColumn] else b.selects
    // erasing the limitation removes exactly one level of nesting
    ensures Depth(c) == if b.limitation.Some? then Depth(b) - 1 else Depth(b)
  {
    var e := b.(limitation := None);
    if ParseStyle(l.style) == Some(Oracle) then e.(selects := e.selects + [RowNumColumn]) else e
  }

  /** `fmt.Fprint(w, " LIMIT ", n)` or `fmt.Fprintf(w, " LIMIT %v OFFSET %v", n, o)`. */
  function LimitSuffix(l: Limitation): string {
    if l.offset == 0 then " LIMIT " + IntToString(l.limitN)
    else " LIMIT " + IntToString(l.limitN) + " OFFSET " + IntToString(l.offset)
  }

  /** The suffix loses nothing: it reads back as the count and the offset.
      A suffix without an OFFSET part reads back with offset 0; that the part
      is left out exactly for offset 0 is stated by Pagination.NativePage. */
  lemma SuffixReadsBack(l: Limitation)
    ensures ReadSuffix(LimitSuffix(l)) == Some((l.limitN, l.offset))
  {
    if l.offset == 0 {
      CountReadsBack(l.limitN);
    } else {
      OffsetReadsBack(l.limitN, l.offset);
    }
  }

  lemma CountReadsBack(n: int)
    ensures ReadSuffix(" LIMIT " + IntToString(n)) == Some((n, 0))
  {
    var t := IntToString(n);
    var s := " LIMIT " + t;
    IntRoundTrip(n);
    SpaceAfterNumeral(n, "");
    assert s[..7] == " LIMIT " && s[7..] == t + "";
  }

  lemma OffsetReadsBack(n: int, o: int)
    ensures ReadSuffix(" LIMIT " + IntToString(n) + " OFFSET " + IntToString(o)) == Some((n, o))
  {
    var t := IntToString(n);
    var u := IntToString(o);
    var s := " LIMIT " + t + " OFFSET " + u;
    var rest := t + (" OFFSET " + u);
    assert s[..7] == " LIMIT " && s[7..] == rest;
    SpaceAfterNumeral(n, " OFFSET " + u);
    assert rest[..|t|] == t;
    var tail := rest[|t|..];
    assert tail == " OFFSET " + u;
    assert tail[..8] == " OFFSET " && tail[8..] == u;
    IntRoundTrip(n);
    IntRoundTrip(o);
  }

  /** Reads a LIMIT suffix back: the count after ` LIMIT `, and the offset
      after ` OFFSET `, or 0 when there is no OFFSET part. */
  function ReadSuffix(s: string): Option<(int, int)> {
    if |s| < 7 || s[..7] != " LIMIT " then None
    else
      var rest := s[7..];
      var k := SpaceAt(rest);
      var n := rest[..k];
      var tail := rest[k..];
      if !Numeral(n) then None
      else if tail == "" then Some((ParseInt(n), 0))
      else if |tail| > 8 && tail[..8] == " OFFSET " && Numeral(tail[8..]) then
        Some((ParseInt(n), ParseInt(tail[8..])))
      else None
  }

  /** `fmt.Sprintf("TOP %d %v", n, strings.Join(cols, ","))`. */
  function Top(n: int, cols: seq<string>): string {
    "TOP " + IntToString(n) + " " + Join(cols, ",")
  }

  /** The TOP head reads back as the row count and the joined column list. */
  lemma TopReadsBack(n: int, cols: seq<string>)
    ensures ReadTop(Top(n, cols)) == Some((n, Join(cols, ",")))
  {
    var t := IntToString(n);
    var j := Join(cols, ",");
    IntRoundTrip(n);
    SpaceAfterNumeral(n, " " + j);
    assert Top(n, cols)[4..] == t + (" " + j);
  }

  /** Reads a TOP head back: the row count, and the column list after the
      space that ends it. */
  function ReadTop(s: string): Option<(int, string)> {
    if |s| < 4 || s[..4] != "TOP " then None
    else
      var rest := s[4..];
      var k := SpaceAt(rest);
      if Numeral(rest[..k]) && k < |rest| then Some((ParseInt(rest[..k]), rest[k + 1..]))
      else None
  }

  /** `q` is a fresh SELECT of `cols` over the derived table `inner` aliased
      `alias`: no dialect, clause, UNION member or limitation of its own. */
  predicate Wraps(q: Builder, cols: seq<string>, inner: Builder, alias: string, nested: bool) {
    && q.kind == SelectKind && q.dialect == "" && q.selects == cols
    && q.source == Derived(inner, alias) && q.nested == nested
    && q.groupBy == "" && q.having == Omitted && q.orderBy == Omitted
    && q.branches == [] && q.limitation.None?
  }

  /** Oracle, offset 0: `SELECT s FROM (c) at WHERE at.ROWNUM<=n`. */
  function OracleFirst(s: seq<string>, c: Builder, n: int): (q: Builder)
    ensures Wraps(q, s, c, "at", false)
    ensures q.cond == Compare("at.ROWNUM", Lte, Int(n))
    // the wrapper adds no level of limitation and no unbound placeholder
    ensures Depth(q) == Depth(c)
    ensures WellFormed(c) && (forall i :: 0 <= i < |s| ==> Plain(s[i])) ==> WellFormed(q)
  {
    var q := Select(s).FromQuery(c, "at").Where(Compare("at.ROWNUM", Lte, Int(n)));
    assert WellFormed(c) && (forall i :: 0 <= i < |s| ==> Plain(s[i])) ==> WellFormed(q) by {
      if WellFormed(c) && (forall i :: 0 <= i < |s| ==> Plain(s[i])) {
        FreshWhereWellFormed(s, c, "at", Compare("at.ROWNUM", Lte, Int(n)));
      }
    }
    q
  }

  /** Oracle, offset o > 0, inner level: the rows numbered up to o+n (Go `int` sum). */
  function OracleInner(s: seq<string>, c: Builder, o: Int64, n: Int64): (q: Builder)
    ensures Wraps(q, s + ["RN"], c, "at", false)
    ensures q.cond.Compare? && q.cond.op == Lte && q.cond.arg.Int?
    ensures Int64Min <= o + n < Int64Limit ==> q.cond == Compare("at.ROWNUM", Lte, Int(o + n))
    ensures Depth(q) == Depth(c)
    ensures WellFormed(c) && (forall i :: 0 <= i < |s| ==> Plain(s[i])) ==> WellFormed(q)
  {
    var q := Select(s + ["RN"]).FromQuery(c, "at").Where(Compare("at.ROWNUM", Lte, Int(Wrap64(o + n))));
    assert WellFormed(c) && (forall i :: 0 <= i < |s| ==> Plain(s[i])) ==> WellFormed(q) by {
      if WellFormed(c) && (forall i :: 0 <= i < |s| ==> Plain(s[i])) {
        FreshWhereWellFormed(s + ["RN"], c, "at", Compare("at.ROWNUM", Lte, Int(Wrap64(o + n))));
      }
    }
    q
  }

  /** Oracle, offset o > 0, outer level: the inner rows numbered above o. */
  function OracleWindow(s: seq<string>, c: Builder, o: Int64, n: Int64): (q: Builder)
    ensures Wraps(q, s, OracleInner(s, c, o, n), "att", false)
    ensures q.cond == Compare("att.RN", Gt, Int(o))
    // two wrapper levels, still no level of limitation and no unbound placeholder
    ensures Depth(q) == Depth(c)
    ensures WellFormed(c) && (forall i :: 0 <= i < |s| ==> Plain(s[i])) ==> WellFormed(q)
  {
    var sub := OracleInner(s, c, o, n);
    var q := Select(s).FromQuery(sub, "att").Where(Compare("att.RN", Gt, Int(o)));
    assert WellFormed(c) && (forall i :: 0 <= i < |s| ==> Plain(s[i])) ==> WellFormed(q) by {
      if WellFormed(c) && (forall i :: 0 <= i < |s| ==> Plain(s[i])) {
        FreshWhereWellFormed(s, sub, "att", Compare("att.RN", Gt, Int(o)));
      }
    }
    q
  }

  /** MSSQL, offset 0: `SELECT TOP n cols FROM (c)`, `*` for an empty list. */
  function MsSqlFirst(s: seq<string>, c: Builder, n: int): (q: Builder)
    ensures Wraps(q, q.selects, c, "", true) && q.cond == NoCond && |q.selects| == 1
    ensures q.selects[0] == Top(n, if |s| == 0 then ["*"] else s)
    ensures Depth(q) == Depth(c)
    ensures WellFormed(c) && (forall i :: 0 <= i < |s| ==> Plain(s[i])) ==> WellFormed(q)
  {
    var cols := if |s| == 0 then ["*"] else s;
    var q := Select([Top(n, cols)]).FromQuery(c, "").SetNestedFlag(true);
    assert WellFormed(c) && (forall i :: 0 <= i < |s| ==> Plain(s[i])) ==> WellFormed(q) by {
      if WellFormed(c) && (forall i :: 0 <= i < |s| ==> Plain(s[i])) {
        TopPlain(n, cols);
        FreshWellFormed([Top(n, cols)], c, "", true);
      }
    }
    q
  }

  /** MSSQL, offset o > 0, inner level: the first n+o rows with their key. */
  function MsSqlInner(s: seq<string>, c: Builder, o: Int64, n: Int64, pk: string): (q: Builder)
    ensures Wraps(q, q.selects, c, "", true) && q.cond == NoCond && |q.selects| == 1
    ensures q.selects[0] == Top(Wrap64(n + o), s + [pk])
    ensures Depth(q) == Depth(c)
    ensures WellFormed(c) && Plain(pk) && (forall i :: 0 <= i < |s| ==> Plain(s[i])) ==> WellFormed(q)
  {
    var q := Select([Top(Wrap64(n + o), s + [pk])]).FromQuery(c, "").SetNestedFlag(true);
    assert WellFormed(c) && Plain(pk) && (forall i :: 0 <= i < |s| ==> Plain(s[i])) ==> WellFormed(q) by {
      if WellFormed(c) && Plain(pk) && (forall i :: 0 <= i < |s| ==> Plain(s[i])) {
        TopPlain(Wrap64(n + o), s + [pk]);
        FreshWellFormed([Top(Wrap64(n + o), s + [pk])], c, "", true);
      }
    }
    q
  }

  /** MSSQL, offset o > 0, outer level: TOP n from the inner query, filtered
      by the original condition and `pk NOT IN (inner)`. */
  function MsSqlWindow(s: seq<string>, c: Builder, o: Int64, n: Int64, pk: string): (q: Builder)
    ensures Wraps(q, q.selects, MsSqlInner(s, c, o, n, pk), "", true) && |q.selects| == 1
    ensures q.selects[0] == Top(n, s)
    // the anti-join excludes against the very query the rows are read from
    ensures q.cond == Conj(c.cond, NotIn(pk, q.source.query))
    // the source and the anti-join each hold one copy of the inner level:
    // no level of limitation is added and every placeholder stays bound
    ensures Depth(q) == Depth(c)
    ensures WellFormed(c) && Plain(pk) && (forall i :: 0 <= i < |s| ==> Plain(s[i])) ==> WellFormed(q)
  {
    var sub := MsSqlInner(s, c, o, n, pk);
    var f := Conj(c.cond, NotIn(pk, sub));
    var q := Select([Top(n, s)]).FromQuery(sub, "").SetNestedFlag(true).Where(f);
    assert CondDepth(c.cond) <= Depth(c);
    assert CondDepth(f) <= Depth(c);
    assert Conj(NoCond, f) == f;
    assert WellFormed(c) && Plain(pk) && (forall i :: 0 <= i < |s| ==> Plain(s[i])) ==> WellFormed(q) by {
      if WellFormed(c) && Plain(pk) && (forall i :: 0 <= i < |s| ==> Plain(s[i])) {
        TopPlain(n, s);
        FreshWellFormed([Top(n, s)], sub, "", true);
        assert CondWellFormed(f);
      }
    }
    q
  }

  /** The rewrite, from the style switch on. `b` is the builder as the
      engine received it; the plan refers to it only through Cleared(b, l). */
  function Rewrite(b: Builder, l: Limitation): (r: Result<Plan>)
    // a first page (offset 0) of a known style is always planned
    ensures r.Fail? ==> ParseStyle(l.style).None? || l.offset != 0
    // the plan never carries the limitation it consumed
    ensures r.Ok? ==> r.value.query.limitation.None?
    // a wrapper reads from a derived table, itself without limitation
    ensures r.Ok? && r.value.Wrapped? ==>
      && r.value.query.kind == SelectKind && r.value.query.source.Derived?
      && r.value.query.source.query.limitation.None?
    // the native plan renders the builder in place, its suffix holding the count and offset
    ensures r.Ok? && r.value.Native? ==>
      r.value.query == Cleared(b, l) && r.value.suffix == LimitSuffix(l)
  {
    var s := b.selects;
    var c := Cleared(b, l);
    match ParseStyle(l.style)
    case None => Fail(NotSupportType)
    case Some(Oracle) =>
      if l.offset == 0 then Ok(Wrapped(OracleFirst(s, c, l.limitN)))
      else if |s| == 0 then Fail(NotSupportType)
      else Ok(Wrapped(OracleWindow(s, c, l.offset, l.limitN)))
    case Some(MsSql) =>
      if l.offset == 0 then Ok(Wrapped(MsSqlFirst(s, c, l.limitN)))
      else if Blank(l.pk) then Fail(MissingPrimaryKey)
      else if |s| == 0 then Fail(NotSupportType)
      else Ok(Wrapped(MsSqlWindow(s, c, l.offset, l.limitN, l.pk)))
    case Some(_) => Ok(Native(c, LimitSuffix(l)))
  }

  /** When the rewrite fails, and with which error: an unknown style; an
      Oracle or MSSQL offset over an empty select list; an MSSQL offset
      without a primary key (checked before the select list). */
  lemma RewriteErrors(b: Builder, l: Limitation)
    ensures Rewrite(b, l).Fail? <==>
      || ParseStyle(l.style).None?
      || (ParseStyle(l.style) == Some(Oracle) && l.offset != 0 && |b.selects| == 0)
      || (ParseStyle(l.style) == Some(MsSql) && l.offset != 0 && (Blank(l.pk) || |b.selects| == 0))
    ensures Rewrite(b, l) == Fail(MissingPrimaryKey) <==>
      ParseStyle(l.style) == Some(MsSql) && l.offset != 0 && Blank(l.pk)
    ensures Rewrite(b, l).Fail? && Rewrite(b, l) != Fail(MissingPrimaryKey) ==>
      Rewrite(b, l) == Fail(NotSupportType)
  {
    var st := ParseStyle(l.style);
    if st.Some? && st.value != Oracle && st.value != MsSql {
      assert Rewrite(b, l) == Ok(Native(Cleared(b, l), LimitSuffix(l)));
    }
  }

  /** Only the LIMIT/OFFSET-native styles keep the builder in place. */
  lemma RewriteNative(b: Builder, l: Limitation)
    ensures Rewrite(b, l).Ok? && Rewrite(b, l).value.Native? <==>
      ParseStyle(l.style).Some? && ParseStyle(l.style).value.IsNative()
    ensures Rewrite(b, l).Ok? && Rewrite(b, l).value.Native? ==>
      Rewrite(b, l).value.query == b.(limitation := None)
  {
    var st := ParseStyle(l.style);
    if st.Some? && st.value.IsNative() {
      assert Rewrite(b, l) == Ok(Native(Cleared(b, l), LimitSuffix(l)));
    } else {
      assert Rewrite(b, l).Fail? || Rewrite(b, l).value.Wrapped?;
    }
  }

  /** The query a plan renders carries no limitation of its own, and its
      limitations nest exactly as deep as those of the cleared builder: the
      rewrite never reintroduces the limitation it consumed. */
  lemma RewriteDepth(b: Builder, l: Limitation)
    requires Rewrite(b, l).Ok?
    ensures Rewrite(b, l).value.query.limitation.None?
    ensures Depth(Rewrite(b, l).value.query) == Depth(b.(limitation := None))
  {
    assert Depth(Cleared(b, l)) == Depth(b.(limitation := None));
  }

  lemma TopPlain(n: int, cols: seq<string>)
    requires forall i :: 0 <= i < |cols| ==> Plain(cols[i])
    ensures Plain(Top(n, cols))
  {
    IntToStringPlain(n);
    JoinPlain(cols, ",");
  }

  lemma SuffixPlain(l: Limitation)
    ensures Plain(LimitSuffix(l))
  {
    IntToStringPlain(l.limitN);
    IntToStringPlain(l.offset);
  }

  /** The rewrite introduces no placeholder beyond the bound arguments it
      adds: the wrapper of a well-formed builder is well-formed and the
      native suffix is plain text. */
  lemma RewriteWellFormed(b: Builder, l: Limitation)
    requires WellFormed(b) && Plain(l.pk)
    requires Rewrite(b, l).Ok?
    ensures WellFormed(Rewrite(b, l).value.query)
    ensures Rewrite(b, l).value.Native? ==> Plain(Rewrite(b, l).value.suffix)
  {
    var c := Cleared(b, l);
    var s := b.selects;
    ClearedWellFormed(b, l);
    var st := ParseStyle(l.style);
    if st == Some(Oracle) {
      if l.offset == 0 {
        assert Rewrite(b, l).value.query == OracleFirst(s, c, l.limitN);
      } else {
        assert Rewrite(b, l).value.query == OracleWindow(s, c, l.offset, l.limitN);
      }
    } else if st == Some(MsSql) {
      if l.offset == 0 {
        assert Rewrite(b, l).value.query == MsSqlFirst(s, c, l.limitN);
      } else {
        assert Rewrite(b, l).value.query == MsSqlWindow(s, c, l.offset, l.limitN, l.pk);
      }
    } else {
      SuffixPlain(l);
    }
  }

  lemma ClearedWellFormed(b: Builder, l: Limitation)
    requires WellFormed(b)
    ensures WellFormed(Cleared(b, l))
    ensures forall i :: 0 <= i < |b.selects| ==> Plain(b.selects[i])
  {
  }

  /** A fresh SELECT over a well-formed derived table is well-formed. */
  lemma FreshWellFormed(cols: seq<string>, q: Builder, alias: string, nested: bool)
    requires WellFormed(q) && Plain(alias) && forall i :: 0 <= i < |cols| ==> Plain(cols[i])
    ensures WellFormed(Select(cols).FromQuery(q, alias).SetNestedFlag(nested))
  {
  }

  /** The same with a well-formed filter. */
  lemma FreshWhereWellFormed(cols: seq<string>, q: Builder, alias: string, c: Cond)
    requires WellFormed(q) && Plain(alias) && CondWellFormed(c)
    requires forall i :: 0 <= i < |cols| ==> Plain(cols[i])
    ensures WellFormed(Select(cols).FromQuery(q, alias).Where(c))
  {
    assert Conj(NoCond, c) == c;
    FreshWellFormed(cols, q, alias, false);
  }
}

=== FILE: pagination.dfy ===
/** End-to-end properties of a paginated render: for each style, the text
    and arguments WriteTo produces for a builder carrying a limitation,
    stated in terms of the render of the builder without it. */
module Pagination {
  import opened Text
  import opened Builders
  import opened Limit
  import opened Render
  import opened SelectRendering

  /** A SELECT or UNION builder carrying an accepted limitation. */
  predicate Paged(b: Builder) {
    b.kind.IsQuery() && b.limitation.Some? && Accepted(b.limitation.value)
  }

  /** The style is read after trimming white space and lower-casing, so any
      spelling with the same normal form selects the same arm; and a style is
      recognised exactly when its normal form is one of the five tokens. */
  lemma StyleMatching(s: string, st: Style)
    ensures ParseStyle(s) == ParseStyle(Normalize(s))
    ensures ParseStyle(s) == Some(st) <==> Normalize(s) == st.Token()
  {
    NormalizeIdempotent(s);
  }

  /** A limitation with a negative offset or a non-positive count is refused
      for every style, and nothing is rendered. */
  lemma InvalidLimitFails(b: Builder)
    requires b.kind.IsQuery() && b.limitation.Some?
    requires b.limitation.value.offset < 0 || b.limitation.value.limitN <= 0
    ensures WriteTo(b) == Fail(InvalidLimit)
  {
  }

  /** A style none of the five tokens names is refused. */
  lemma UnknownStyleFails(b: Builder)
    requires Paged(b) && ParseStyle(b.limitation.value.style).None?
    ensures WriteTo(b) == Fail(NotSupportType)
  {
  }

  /** The engine starts from an empty writer whatever it was handed: once
      the limitation is accepted, the writer's earlier contents do not
      matter. */
  lemma LimitResetsWriter(b: Builder, w1: Writer, w2: Writer)
    requires Paged(b)
    ensures LimitWriteTo(b, w1) == LimitWriteTo(b, w2)
  {
  }

  /** SQLite/MySQL/Postgres: the builder's own render followed by
      ` LIMIT n`, or ` LIMIT n OFFSET o` when o > 0; the arguments are
      exactly the builder's own. */
  lemma NativePage(b: Builder, q: Writer)
    requires Paged(b)
    requires ParseStyle(b.limitation.value.style).Some? && ParseStyle(b.limitation.value.style).value.IsNative()
    requires WriteTo(b.(limitation := None)) == Ok(q)
    ensures b.limitation.value.offset == 0 ==>
      WriteTo(b) == Ok(Writer(q.text + " LIMIT " + IntToString(b.limitation.value.limitN), q.args))
    ensures b.limitation.value.offset != 0 ==>
      WriteTo(b) == Ok(Writer(q.text + " LIMIT " + IntToString(b.limitation.value.limitN)
                               + " OFFSET " + IntToString(b.limitation.value.offset), q.args))
  {
    NativeStep(b);
    SuffixText(q, b.limitation.value);
  }

  lemma SuffixText(q: Writer, l: Limitation)
    ensures l.offset == 0 ==>
      q.Then(Lit(LimitSuffix(l))) == Writer(q.text + " LIMIT " + IntToString(l.limitN), q.args)
    ensures l.offset != 0 ==>
      q.Then(Lit(LimitSuffix(l))) ==
        Writer(q.text + " LIMIT " + IntToString(l.limitN) + " OFFSET " + IntToString(l.offset), q.args)
  {
    assert q.args + [] == q.args;
  }

  /** SQLite/MySQL/Postgres: when the builder itself cannot be rendered, the
      engine drops that error and returns the bare LIMIT suffix as success. */
  lemma NativeDropsError(b: Builder)
    requires Paged(b)
    requires ParseStyle(b.limitation.value.style).Some? && ParseStyle(b.limitation.value.style).value.IsNative()
    requires WriteTo(b.(limitation := None)).Fail?
    ensures WriteTo(b) == Ok(Lit(LimitSuffix(b.limitation.value)))
  {
    var l := b.limitation.value;
    NativeStep(b);
    assert Empty.Then(Lit(LimitSuffix(l))) == Lit(LimitSuffix(l));
  }

  /** The native arm, one step: the engine renders the cleared builder and
      appends the suffix, keeping nothing of a failed render. */
  lemma NativeStep(b: Builder)
    requires Paged(b)
    requires ParseStyle(b.limitation.value.style).Some? && ParseStyle(b.limitation.value.style).value.IsNative()
    ensures var out := WriteTo(b.(limitation := None));
      var kept := if out.Ok? then out.value else Empty;
      WriteTo(b) == Ok(kept.Then(Lit(LimitSuffix(b.limitation.value))))
  {
    var l := b.limitation.value;
    RewriteNative(b, l);
    var s := LimitWriteTo(b, Empty);
    assert s.err.None?;
    assert WriteTo(b) == Ok(s.writer);
  }

  /** Oracle and MSSQL, one step: the engine renders the wrapper query in
      place of the builder, and its error, if any, is the engine's. */
  lemma WrappedStep(b: Builder, q: Builder)
    requires Paged(b) && Rewrite(b, b.limitation.value) == Ok(Wrapped(q))
    ensures WriteTo(b) == WriteTo(q)
  {
  }

  /** On the Oracle arm the select list gains `ROWNUM RN` as its last
      column; over an empty list that is the only column. A SELECT writes
      this column text, a UNION writes no select list of its own. */
  lemma {:induction false} OracleInnerColumns(b: Builder, l: Limitation)
    requires ParseStyle(l.style) == Some(Oracle)
    ensures Columns(Cleared(b, l).selects) ==
      if |b.selects| == 0 then RowNumColumn else Columns(b.selects) + "," + RowNumColumn
  {
    if |b.selects| > 0 {
      JoinSnoc(b.selects, RowNumColumn, ",");
    }
  }

  /** A wrapper level: a plain SELECT over the derived table `c` under
      `alias`, filtered by one comparison. */
  predicate FilteredShape(q: Builder, c: Builder, alias: string, col: string, op: Op, v: Value) {
    && Simple(q) && q.dialect == ""
    && q.source == Derived(c, alias)
    && q.cond == Compare(col, op, v)
  }

  /** `SELECT s FROM (<inner>) alias WHERE col op ?`, with the inner
      arguments before the filter's. */
  lemma FilteredAt(q: Builder, c: Builder, alias: string, col: string, op: Op, v: Value, inner: Writer)
    requires FilteredShape(q, c, alias, col, op, v)
    requires alias != "" && c.kind.IsQuery()
    requires WriteTo(c) == Ok(inner)
    ensures WriteTo(q) ==
      Ok(Writer("SELECT " + Columns(q.selects) + " FROM (" + inner.text + FilterTail(alias, col, op), inner.args + [v]))
  {
    var cw := Writer(col + op.Symbol() + "?", [v]);
    assert CondWriteTo(q.cond) == Ok(cw);
    assert WhereText(q, cw) == " WHERE " + cw.text;
    DerivedSelect(q, inner, cw);
    FilteredText(Columns(q.selects), inner.text, alias, col, op);
  }

  lemma FilteredDerived(s: seq<string>, c: Builder, alias: string, col: string, op: Op, v: Value, inner: Writer)
    requires alias != "" && c.kind.IsQuery()
    requires WriteTo(c) == Ok(inner)
    ensures WriteTo(Select(s).FromQuery(c, alias).Where(Compare(col, op, v))) ==
      Ok(Writer("SELECT " + Columns(s) + " FROM (" + inner.text + FilterTail(alias, col, op), inner.args + [v]))
  {
    FilteredAt(Select(s).FromQuery(c, alias).Where(Compare(col, op, v)), c, alias, col, op, v, inner);
  }

  /** What follows the inner query in a wrapper level. */
  function FilterTail(alias: string, col: string, op: Op): string {
    ") " + alias + " WHERE " + col + op.Symbol() + "?"
  }

  lemma FilteredText(cols: string, t: string, alias: string, col: string, op: Op)
    ensures "SELECT " + cols + (" FROM (" + t + ")" + (" " + alias)) + (" WHERE " + (col + op.Symbol() + "?"))
      == "SELECT " + cols + " FROM (" + t + FilterTail(alias, col, op)
  {
  }

  lemma OracleTails()
    ensures FilterTail("at", "at.ROWNUM", Lte) == ") at WHERE at.ROWNUM<=?"
    ensures FilterTail("att", "att.RN", Gt) == ") att WHERE att.RN>?"
  {
    assert ") " + "at" + " WHERE " == ") at WHERE ";
    assert "at.ROWNUM" + "<=" + "?" == "at.ROWNUM<=?";
    assert ") " + "att" + " WHERE " == ") att WHERE ";
    assert "att.RN" + ">" + "?" == "att.RN>?";
  }

  /** Oracle, offset 0: the cleared builder becomes the derived table `at`,
      filtered by `at.ROWNUM<=?` bound to the count. */
  lemma OracleFirstPage(b: Builder, inner: Writer)
    requires Paged(b) && ParseStyle(b.limitation.value.style) == Some(Oracle)
    requires b.limitation.value.offset == 0
    requires WriteTo(Cleared(b, b.limitation.value)) == Ok(inner)
    ensures WriteTo(b) == Ok(Writer(
      "SELECT " + Columns(b.selects) + " FROM (" + inner.text + ") at WHERE at.ROWNUM<=?",
      inner.args + [Int(b.limitation.value.limitN)]))
  {
    var l := b.limitation.value;
    var c := Cleared(b, l);
    WrappedStep(b, OracleFirst(b.selects, c, l.limitN));
    FilteredDerived(b.selects, c, "at", "at.ROWNUM", Lte, Int(l.limitN), inner);
    OracleTails();
  }

  /** Oracle, offset o > 0: two levels. The inner level `at` keeps the
      rows numbered up to o+n (a Go `int` sum) and adds the RN column; the
      outer level `att` keeps those numbered above o. The arguments are the
      builder's, then o+n, then o. */
  lemma OracleWindowPage(b: Builder, l: Limitation, inner: Writer)
    requires OracleWindowCase(b, l)
    requires WriteTo(Cleared(b, l)) == Ok(inner)
    ensures WriteTo(b) == Ok(RowsAbove(b.selects, l.offset, l.limitN, inner))
  {
    OracleWindowStep(b, l);
    OracleWindowRender(b.selects, Cleared(b, l), l.offset, l.limitN, inner);
  }

  /** The Oracle window over a rendered cleared builder. */
  lemma OracleWindowRender(s: seq<string>, c: Builder, o: Int64, n: Int64, inner: Writer)
    requires |s| > 0 && c.kind.IsQuery()
    requires WriteTo(c) == Ok(inner)
    ensures WriteTo(OracleWindow(s, c, o, n)) == Ok(RowsAbove(s, o, n, inner))
  {
    var sub := OracleInner(s, c, o, n);
    var subw := OracleInnerLevel(s, c, o, n, inner);
    assert OracleWindow(s, c, o, n) == Select(s).FromQuery(sub, "att").Where(Compare("att.RN", Gt, Int(o)));
    OracleOuterLevel(s, sub, o, subw);
    ArgsSnoc(inner.args, Int(Wrap64(o + n)), Int(o));
  }

  lemma ArgsSnoc(xs: seq<Value>, a: Value, b: Value)
    ensures xs + [a] + [b] == xs + [a, b]
  {
  }

  /** An Oracle limitation with an offset and a non-empty select list. */
  predicate OracleWindowCase(b: Builder, l: Limitation) {
    && Paged(b) && b.limitation == Some(l) && ParseStyle(l.style) == Some(Oracle)
    && l.offset != 0 && |b.selects| > 0
  }

  lemma OracleWindowStep(b: Builder, l: Limitation)
    requires OracleWindowCase(b, l)
    ensures WriteTo(b) == WriteTo(OracleWindow(b.selects, Cleared(b, l), l.offset, l.limitN))
  {
    assert Rewrite(b, l) == Ok(Wrapped(OracleWindow(b.selects, Cleared(b, l), l.offset, l.limitN)));
    WrappedStep(b, OracleWindow(b.selects, Cleared(b, l), l.offset, l.limitN));
  }

  /** The outer level of the Oracle window over a rendered inner level. */
  lemma OracleOuterLevel(s: seq<string>, sub: Builder, o: Int64, w: Writer)
    requires sub.kind.IsQuery() && WriteTo(sub) == Ok(w)
    ensures WriteTo(Select(s).FromQuery(sub, "att").Where(Compare("att.RN", Gt, Int(o)))) ==
      Ok(Writer("SELECT " + Columns(s) + " FROM (" + w.text + ") att WHERE att.RN>?", w.args + [Int(o)]))
  {
    FilteredDerived(s, sub, "att", "att.RN", Gt, Int(o), w);
    OracleTails();
  }

  /** The Oracle window over a render `inner` of the cleared builder: the
      rows of the inner level numbered above o. The arguments are the
      builder's, then o+n, then o, the order of their placeholders. */
  function RowsAbove(s: seq<string>, o: Int64, n: Int64, inner: Writer): Writer {
    Writer("SELECT " + Columns(s) + " FROM (" + RowsUpTo(s, inner.text) + ") att WHERE att.RN>?",
           inner.args + [Int(Wrap64(o + n)), Int(o)])
  }

  /** The text of the inner level of the Oracle window over a render `t`
      of the cleared builder. */
  function RowsUpTo(s: seq<string>, t: string): string {
    "SELECT " + Columns(s) + ",RN FROM (" + t + ") at WHERE at.ROWNUM<=?"
  }

  /** The inner level of the Oracle window. */
  lemma OracleInnerLevel(s: seq<string>, c: Builder, o: Int64, n: Int64, inner: Writer) returns (w: Writer)
    requires |s| > 0 && c.kind.IsQuery()
    requires WriteTo(c) == Ok(inner)
    ensures w == Writer(RowsUpTo(s, inner.text), inner.args + [Int(Wrap64(o + n))])
    ensures WriteTo(OracleInner(s, c, o, n)) == Ok(w)
  {
    FilteredDerived(s + ["RN"], c, "at", "at.ROWNUM", Lte, Int(Wrap64(o + n)), inner);
    OracleTails();
    JoinSnoc(s, "RN", ",");
    assert Columns(s + ["RN"]) == Columns(s) + "," + "RN";
    RnText(Columns(s), inner.text, ") at WHERE at.ROWNUM<=?");
    w := Writer("SELECT " + Columns(s) + ",RN FROM (" + inner.text + ") at WHERE at.ROWNUM<=?",
                inner.args + [Int(Wrap64(o + n))]);
  }

  lemma RnText(cols: string, t: string, tail: string)
    ensures "SELECT " + (cols + "," + "RN") + " FROM (" + t + tail == "SELECT " + cols + ",RN FROM (" + t + tail
  {
    assert "," + "RN" + " FROM (" == ",RN FROM (";
  }

  /** Oracle with an offset over an empty select list is refused. */
  lemma OracleEmptySelectsFails(b: Builder)
    requires Paged(b) && ParseStyle(b.limitation.value.style) == Some(Oracle)
    requires b.limitation.value.offset != 0 && |b.selects| == 0
    ensures WriteTo(b) == Fail(NotSupportType)
  {
    assert Rewrite(b, b.limitation.value) == Fail(NotSupportType);
    assert LimitWriteTo(b, Empty).err == Some(NotSupportType);
  }

  /** `SELECT TOP n c1,…,ck FROM (<inner>)`, `*` standing for an empty list:
      a nested, unaliased derived table without a filter. */
  lemma TopDerived(n: int, s: seq<string>, c: Builder, inner: Writer)
    requires |s| > 0 && c.kind.IsQuery()
    requires WriteTo(c) == Ok(inner)
    ensures WriteTo(Select([Top(n, s)]).FromQuery(c, "").SetNestedFlag(true)) ==
      Ok(Writer("SELECT TOP " + IntToString(n) + " " + Columns(s) + " FROM (" + inner.text + ")", inner.args))
  {
    var q := Select([Top(n, s)]).FromQuery(c, "").SetNestedFlag(true);
    DerivedSelect(q, inner, Empty);
    assert Columns(q.selects) == Top(n, s);
    assert WhereText(q, Empty) == "";
    TopText(IntToString(n), Columns(s), inner.text);
    assert inner.args + [] == inner.args;
  }

  lemma TopText(k: string, cols: string, t: string)
    ensures "SELECT " + ("TOP " + k + " " + cols) + (" FROM (" + t + ")" + "") + ""
      == "SELECT TOP " + k + " " + cols + " FROM (" + t + ")"
  {
    assert "SELECT " + "TOP " == "SELECT TOP ";
  }

  /** MSSQL, offset 0: `SELECT TOP n <columns> FROM (<builder>)`; the
      arguments are the builder's own. */
  lemma MsSqlFirstPage(b: Builder, inner: Writer)
    requires Paged(b) && ParseStyle(b.limitation.value.style) == Some(MsSql)
    requires b.limitation.value.offset == 0
    requires WriteTo(b.(limitation := None)) == Ok(inner)
    ensures WriteTo(b) == Ok(Writer(
      "SELECT TOP " + IntToString(b.limitation.value.limitN) + " " + Columns(b.selects) + " FROM (" + inner.text + ")",
      inner.args))
  {
    var l := b.limitation.value;
    var c := Cleared(b, l);
    var cols := if |b.selects| == 0 then ["*"] else b.selects;
    assert Columns(cols) == Columns(b.selects);
    WrappedStep(b, MsSqlFirst(b.selects, c, l.limitN));
    TopDerived(l.limitN, cols, c, inner);
  }

  /** MSSQL with an offset needs a primary key, and then a non-empty select
      list; the key is checked first. */
  lemma MsSqlOffsetFails(b: Builder)
    requires Paged(b) && ParseStyle(b.limitation.value.style) == Some(MsSql)
    requires b.limitation.value.offset != 0
    ensures Blank(b.limitation.value.pk) ==> WriteTo(b) == Fail(MissingPrimaryKey)
    ensures !Blank(b.limitation.value.pk) && |b.selects| == 0 ==> WriteTo(b) == Fail(NotSupportType)
  {
    var l := b.limitation.value;
    if Blank(l.pk) {
      assert Rewrite(b, l) == Fail(MissingPrimaryKey);
      assert LimitWriteTo(b, Empty).err == Some(MissingPrimaryKey);
    } else if |b.selects| == 0 {
      assert Rewrite(b, l) == Fail(NotSupportType);
      assert LimitWriteTo(b, Empty).err == Some(NotSupportType);
    }
  }

  /** The text of the inner level of the MSSQL window: the first k rows of
      the rendered builder `t`, with the key column appended. */
  function TopRows(k: int, s: seq<string>, pk: string, t: string): string {
    "SELECT TOP " + IntToString(k) + " " + Columns(s) + "," + pk + " FROM (" + t + ")"
  }

  /** The inner level of the MSSQL window. */
  lemma MsSqlInnerLevel(s: seq<string>, c: Builder, o: Int64, n: Int64, pk: string, inner: Writer) returns (w: Writer)
    requires |s| > 0 && c.kind.IsQuery()
    requires WriteTo(c) == Ok(inner)
    ensures w == Writer(TopRows(Wrap64(n + o), s, pk, inner.text), inner.args)
    ensures WriteTo(MsSqlInner(s, c, o, n, pk)) == Ok(w)
  {
    TopDerived(Wrap64(n + o), s + [pk], c, inner);
    JoinSnoc(s, pk, ",");
    assert Columns(s + [pk]) == Columns(s) + "," + pk;
    KeyText(IntToString(Wrap64(n + o)), Columns(s), pk, inner.text);
    w := Writer(TopRows(Wrap64(n + o), s, pk, inner.text), inner.args);
  }

  lemma KeyText(k: string, cols: string, pk: string, t: string)
    ensures "SELECT TOP " + k + " " + (cols + "," + pk) + " FROM (" + t + ")"
      == "SELECT TOP " + k + " " + cols + "," + pk + " FROM (" + t + ")"
  {
  }

  /** `pk NOT IN (<sub>)`, carrying the subquery's arguments. */
  lemma NotInText(pk: string, sub: Builder, subw: Writer)
    requires WriteTo(sub) == Ok(subw)
    ensures CondWriteTo(NotIn(pk, sub)) == Ok(Writer(pk + " NOT IN (" + subw.text + ")", subw.args))
    ensures OperandWriteTo(NotIn(pk, sub)) == CondWriteTo(NotIn(pk, sub))
  {
    var w := Lit(pk + " NOT IN (").Then(subw).Then(Lit(")"));
    assert w.args == [] + subw.args + [];
    assert [] + subw.args + [] == subw.args;
  }

  /** An AND of two rendered operands. */
  lemma AndText(a: Cond, b: Cond, aw: Writer, bw: Writer)
    requires OperandWriteTo(a) == Ok(aw) && OperandWriteTo(b) == Ok(bw)
    ensures CondWriteTo(And(a, b)) == Ok(Writer(aw.text + " AND " + bw.text, aw.args + bw.args))
  {
    assert aw.args + [] == aw.args;
  }

  /** The MSSQL window filter: the builder's own condition, if any, as an
      AND operand, then `pk NOT IN (<inner level>)`. */
  lemma ExclusionFilter(cond: Cond, pk: string, sub: Builder, subw: Writer, fw: Writer)
    requires WriteTo(sub) == Ok(subw)
    requires OperandWriteTo(cond) == Ok(fw)
    ensures CondWriteTo(Conj(cond, NotIn(pk, sub))) == Ok(
      if cond.IsValid() then Writer(fw.text + " AND " + (pk + " NOT IN (" + subw.text + ")"), fw.args + subw.args)
      else Writer(pk + " NOT IN (" + subw.text + ")", subw.args))
  {
    NotInText(pk, sub, subw);
    if cond.IsValid() {
      AndText(cond, NotIn(pk, sub), fw, Writer(pk + " NOT IN (" + subw.text + ")", subw.args));
    }
  }

  /** The outer level of the MSSQL window: a nested, unaliased derived
      table under a filter. */
  lemma MsSqlOuterLevel(n: Int64, s: seq<string>, sub: Builder, subw: Writer, cond: Cond, cw: Writer)
    requires |s| > 0 && sub.kind.IsQuery() && cond.IsValid()
    requires WriteTo(sub) == Ok(subw)
    requires CondWriteTo(cond) == Ok(cw)
    ensures WriteTo(Select([Top(n, s)]).FromQuery(sub, "").SetNestedFlag(true).Where(cond)) ==
      Ok(Writer("SELECT TOP " + IntToString(n) + " " + Columns(s) + " FROM (" + subw.text + ") WHERE " + cw.text,
                subw.args + cw.args))
  {
    var q := Select([Top(n, s)]).FromQuery(sub, "").SetNestedFlag(true).Where(cond);
    assert q.cond == cond;
    DerivedSelect(q, subw, cw);
    assert Columns(q.selects) == Top(n, s);
    FilteredTopText(IntToString(n), Columns(s), subw.text, cw.text);
  }

  lemma FilteredTopText(k: string, cols: string, t: string, f: string)
    ensures "SELECT " + ("TOP " + k + " " + cols) + (" FROM (" + t + ")" + "") + (" WHERE " + f)
      == "SELECT TOP " + k + " " + cols + " FROM (" + t + ") WHERE " + f
  {
    assert "SELECT " + "TOP " == "SELECT TOP ";
    assert ")" + " WHERE " == ") WHERE ";
  }

  /** The MSSQL window over a render `inner` of the builder: the first n
      rows of its first n+o rows (with the key column) whose key is not among
      those same n+o rows, under the builder's own filter `fw` when it has
      one. The inner level is rendered twice, so its arguments occur twice:
      once for the derived table and once inside NOT IN. */
  function ExclusionWindow(s: seq<string>, o: Int64, n: Int64, pk: string, inner: Writer,
                           filtered: bool, fw: Writer): Writer {
    var rows := TopRows(Wrap64(n + o), s, pk, inner.text);
    var head := "SELECT TOP " + IntToString(n) + " " + Columns(s) + " FROM (" + rows + ") WHERE ";
    var tail := pk + " NOT IN (" + rows + ")";
    if filtered then Writer(head + (fw.text + " AND " + tail), inner.args + (fw.args + inner.args))
    else Writer(head + tail, inner.args + inner.args)
  }

  /** MSSQL, offset o > 0, over a rendered builder: the first n rows among
      the first n+o whose key is not among the first o+n of the builder
      itself, filtered again by the builder's condition. The inner level is
      rendered twice, so its arguments occur twice: once for the derived
      table and once inside NOT IN. */
  lemma MsSqlWindowRender(s: seq<string>, c: Builder, o: Int64, n: Int64, pk: string, inner: Writer, fw: Writer)
    requires |s| > 0 && c.kind.IsQuery()
    requires WriteTo(c) == Ok(inner)
    requires OperandWriteTo(c.cond) == Ok(fw)
    ensures WriteTo(MsSqlWindow(s, c, o, n, pk)) == Ok(ExclusionWindow(s, o, n, pk, inner, c.cond.IsValid(), fw))
  {
    var sub := MsSqlInner(s, c, o, n, pk);
    var subw := MsSqlInnerLevel(s, c, o, n, pk, inner);
    var cond := Conj(c.cond, NotIn(pk, sub));
    var tail := pk + " NOT IN (" + subw.text + ")";
    var cw := if c.cond.IsValid() then Writer(fw.text + " AND " + tail, fw.args + subw.args) else Writer(tail, subw.args);
    assert CondWriteTo(cond) == Ok(cw) by {
      ExclusionFilter(c.cond, pk, sub, subw, fw);
    }
    MsSqlOuterLevel(n, s, sub, subw, cond, cw);
  }

  /** An MSSQL limitation with an offset, a key and a non-empty select list. */
  predicate MsSqlWindowCase(b: Builder, l: Limitation) {
    && Paged(b) && b.limitation == Some(l) && ParseStyle(l.style) == Some(MsSql)
    && l.offset != 0 && !Blank(l.pk) && |b.selects| > 0
  }

  lemma MsSqlWindowStep(b: Builder, l: Limitation)
    requires MsSqlWindowCase(b, l)
    ensures WriteTo(b) == WriteTo(MsSqlWindow(b.selects, Cleared(b, l), l.offset, l.limitN, l.pk))
  {
    assert Rewrite(b, l) == Ok(Wrapped(MsSqlWindow(b.selects, Cleared(b, l), l.offset, l.limitN, l.pk)));
    WrappedStep(b, MsSqlWindow(b.selects, Cleared(b, l), l.offset, l.limitN, l.pk));
  }

  /** MSSQL, offset o > 0, with a key and a non-empty select list: the
      two-level window above, over the builder without its limitation.
      `fw` is the builder's own condition as an AND operand. */
  lemma MsSqlWindowPage(b: Builder, l: Limitation, inner: Writer, fw: Writer)
    requires MsSqlWindowCase(b, l)
    requires WriteTo(b.(limitation := None)) == Ok(inner)
    requires OperandWriteTo(b.cond) == Ok(fw)
    ensures WriteTo(b) == Ok(ExclusionWindow(b.selects, l.offset, l.limitN, l.pk, inner, b.cond.IsValid(), fw))
  {
    var c := Cleared(b, l);
    assert c == b.(limitation := None) && c.cond == b.cond;
    MsSqlWindowStep(b, l);
    MsSqlWindowRender(b.selects, c, l.offset, l.limitN, l.pk, inner, fw);
  }

  /** As written, the outer MSSQL level reads from its inner level and
      excludes, through NOT IN, the keys of that same inner level; and the
      subquery under NOT IN lists the select list and the key, not the key
      alone. */
  lemma MsSqlExcludesOwnSource(s: seq<string>, c: Builder, o: Int64, n: Int64, pk: string)
    ensures var q := MsSqlWindow(s, c, o, n, pk);
      && q.source.Derived? && q.source.query == MsSqlInner(s, c, o, n, pk)
      && q.cond == Conj(c.cond, NotIn(pk, q.source.query))
      && q.source.query.selects == [Top(Wrap64(n + o), s + [pk])]
  {
  }

  /** The MSSQL window reads from an unaliased derived table under a valid
      filter, so only its nested flag spares it ErrUnnamedDerivedTable: the
      same query with the flag cleared fails. */
  lemma MsSqlWindowNeedsNestedFlag(s: seq<string>, c: Builder, o: Int64, n: Int64, pk: string)
    ensures WriteTo(MsSqlWindow(s, c, o, n, pk).(nested := false)) == Fail(UnnamedDerivedTable)
  {
    var q := MsSqlWindow(s, c, o, n, pk).(nested := false);
    assert q.cond.IsValid();
    assert FromWriteTo(q) == Fail(UnnamedDerivedTable);
  }
}

=== FILE: render.dfy ===
/** Rendering a builder to SQL text plus positional arguments, and the
    pagination engine `limitWriteTo` that rewrites a limited SELECT/UNION
    before rendering it. The two call each other: a builder carrying a
    limitation is rendered by the engine, which renders the cleared builder
    or a wrapper over it. Each such call renders a builder whose limitations
    nest strictly less deeply (Depth), so the recursion ends. */
module Render {
  import opened Text
  import opened Builders
  import opened Limit

  /** The select list as written after SELECT: joined by "," or `*`. */
  function Columns(selects: seq<string>): string {
    if |selects| == 0 then "*" else Join(selects, ",")
  }

  lemma ColumnsPlain(selects: seq<string>)
    ensures (forall i :: 0 <= i < |selects| ==> Plain(selects[i])) ==> Plain(Columns(selects))
  {
    if |selects| > 0 && forall i :: 0 <= i < |selects| ==> Plain(selects[i]) {
      JoinPlain(selects, ",");
    }
  }

  /** What limitWriteTo leaves behind: the builder, the writer, the error it
      returns. */
  datatype Step = Step(builder: Builder, writer: Writer, err: Option<Error>)

  /** Builder.WriteTo into a fresh writer: the text and arguments of the
      statement, or the first error met. Every placeholder written by a
      well-formed builder has its argument, in textual order. */
  function WriteTo(b: Builder): (r: Result<Writer>)
    ensures WellFormed(b) && r.Ok? ==> r.value.Balanced()
    decreases Depth(b), b, 2, 0
  {
    if b.limitation.Some? && b.kind.IsQuery() then
      var s := LimitWriteTo(b, Empty);
      if s.err.Some? then Fail(s.err.value) else Ok(s.writer)
    else if b.kind == SelectKind then SelectWriteTo(b)
    else if b.kind == UnionKind then UnionWriteTo(b, 0)
    else Fail(WriterNotModelled)
  }

  /** `(*Builder).limitWriteTo`. */
  function LimitWriteTo(b: Builder, w: Writer): (s: Step)
    // the kind is checked before anything else
    ensures !b.kind.IsQuery() ==> s == Step(b, w, Some(LimitNotInQuery))
    // no limitation: nothing to do
    ensures b.kind.IsQuery() && b.limitation.None? ==> s == Step(b, w, None)
    // a rejected limitation leaves builder and writer untouched
    ensures b.kind.IsQuery() && b.limitation.Some? && !Accepted(b.limitation.value) ==>
      s == Step(b, w, Some(InvalidLimit))
    // an accepted limitation is erased, whatever the outcome
    ensures b.kind.IsQuery() && b.limitation.Some? && Accepted(b.limitation.value) ==>
      s.builder.limitation.None? && s.builder == Cleared(b, b.limitation.value)
    // an error leaves the writer empty: the reset discards what it held
    ensures b.kind.IsQuery() && b.limitation.Some? && Accepted(b.limitation.value) && s.err.Some? ==>
      s.writer == Empty
    // the native styles never report an error
    ensures b.kind.IsQuery() && b.limitation.Some? && Accepted(b.limitation.value) ==>
      var st := ParseStyle(b.limitation.value.style);
      st.Some? && st.value.IsNative() ==> s.err.None?
    ensures WellFormed(b) && w.Balanced() ==> s.writer.Balanced()
    decreases Depth(b), b, 1, 0
  {
    if !b.kind.IsQuery() then Step(b, w, Some(LimitNotInQuery))
    else if b.limitation.None? then Step(b, w, None)
    else
      var l := b.limitation.value;
      if !Accepted(l) then Step(b, w, Some(InvalidLimit))
      else
        var c := Cleared(b, l);
        match Rewrite(b, l)
        case Fail(e) => Step(c, Empty, Some(e))
        case Ok(plan) =>
          RewriteDepth(b, l);
          assert WellFormed(b) ==> WellFormed(plan.query) && (plan.Native? ==> Plain(plan.suffix)) by {
            if WellFormed(b) {
              RewriteWellFormed(b, l);
            }
          }
          match plan
          case Native(q, suffix) =>
            // the error of the inner render is dropped
            var out := WriteTo(q);
            var kept := if out.Ok? then out.value else Empty;
            LitBalanced(suffix);
            ThenBalanced(kept, Lit(suffix));
            Step(c, kept.Then(Lit(suffix)), None)
          case Wrapped(q) =>
            match WriteTo(q)
            case Fail(e) => Step(c, Empty, Some(e))
            case Ok(out) => Step(c, out, None)
  }

  /** `selectWriteTo` for a builder without limitation:
      SELECT cols FROM src [WHERE c] [GROUP BY g] [HAVING h] [ORDER BY o]. */
  function SelectWriteTo(b: Builder): (r: Result<Writer>)
    requires b.limitation.None?
    ensures WellFormed(b) && r.Ok? ==> r.value.Balanced()
    decreases Depth(b), b, 1, 0
  {
    var from :- FromWriteTo(b);
    var cond :- CondWriteTo(b.cond);
    var having :- ClauseWriteTo(" HAVING ", b.having);
    var order :- ClauseWriteTo(" ORDER BY ", b.orderBy);
    var head := Lit("SELECT " + Columns(b.selects));
    var where := if b.cond.IsValid() then Lit(" WHERE ").Then(cond) else Empty;
    var group := if b.groupBy == "" then Empty else Lit(" GROUP BY " + b.groupBy);
    var out := head.Then(from).Then(where).Then(group).Then(having).Then(order);
    assert WellFormed(b) ==> out.Balanced() by {
      if WellFormed(b) {
        SelectBalanced(b, from, cond, having, order);
      }
    }
    Ok(out)
  }

  /** The pieces SelectWriteTo joins are balanced when the builder is. */
  lemma SelectBalanced(b: Builder, from: Writer, cond: Writer, having: Writer, order: Writer)
    requires WellFormed(b)
    requires from.Balanced() && cond.Balanced() && having.Balanced() && order.Balanced()
    ensures
      var where := if b.cond.IsValid() then Lit(" WHERE ").Then(cond) else Empty;
      var group := if b.groupBy == "" then Empty else Lit(" GROUP BY " + b.groupBy);
      Lit("SELECT " + Columns(b.selects)).Then(from).Then(where).Then(group).Then(having).Then(order).Balanced()
  {
    var head := Lit("SELECT " + Columns(b.selects));
    var where := if b.cond.IsValid() then Lit(" WHERE ").Then(cond) else Empty;
    var group := if b.groupBy == "" then Empty else Lit(" GROUP BY " + b.groupBy);
    assert head.Balanced() by {
      ColumnsPlain(b.selects);
      assert Plain("SELECT ");
      LitBalanced("SELECT " + Columns(b.selects));
    }
    assert where.Balanced() by {
      assert Plain(" WHERE ");
      LitBalanced(" WHERE ");
      ThenBalanced(Lit(" WHERE "), cond);
    }
    assert group.Balanced() by {
      assert Plain(" GROUP BY ");
      LitBalanced(" GROUP BY " + b.groupBy);
    }
    SixBalanced(head, from, where, group, having, order);
  }

  lemma SixBalanced(a: Writer, b: Writer, c: Writer, d: Writer, e: Writer, f: Writer)
    requires a.Balanced() && b.Balanced() && c.Balanced()
    requires d.Balanced() && e.Balanced() && f.Balanced()
    ensures a.Then(b).Then(c).Then(d).Then(e).Then(f).Balanced()
  {
    ThenBalanced(a, b);
    ThenBalanced(a.Then(b), c);
    ThenBalanced(a.Then(b).Then(c), d);
    ThenBalanced(a.Then(b).Then(c).Then(d), e);
    ThenBalanced(a.Then(b).Then(c).Then(d).Then(e), f);
  }

  /** The FROM part: a table name, or a derived table `(sub) alias`. */
  function FromWriteTo(b: Builder): (r: Result<Writer>)
    requires b.limitation.None?
    ensures WellFormed(b) && r.Ok? ==> r.value.Balanced()
    decreases Depth(b), b, 0, 0
  {
    match b.source
    case NoSource => Fail(NoTableName)
    case Table(t) =>
      assert WellFormed(b) ==> Lit(" FROM " + t).Balanced() by {
        if WellFormed(b) {
          assert SourceWellFormed(b.source);
          assert Plain(t) && Plain(" FROM ");
          LitBalanced(" FROM " + t);
        }
      }
      Ok(Lit(" FROM " + t))
    case Derived(q, alias) =>
      if alias == "" && b.cond.IsValid() && !b.nested then Fail(UnnamedDerivedTable)
      else if q.dialect != "" && b.dialect != "" && q.dialect != b.dialect then Fail(InconsistentDialect)
      else if !q.kind.IsQuery() then Fail(UnexpectedSubQuery)
      else
        assert SourceDepth(b.source) == Depth(q);
        var inner :- WriteTo(q);
        var close := if alias == "" then ")" else ") " + alias;
        var out := Lit(" FROM (").Then(inner).Then(Lit(close));
        assert WellFormed(b) ==> out.Balanced() by {
          if WellFormed(b) {
            assert SourceWellFormed(b.source);
            assert Plain(alias) && WellFormed(q);
            assert Plain(" FROM (") && Plain(") ") && Plain(")");
            LitBalanced(" FROM (");
            LitBalanced(close);
            ThenBalanced(Lit(" FROM ("), inner);
            ThenBalanced(Lit(" FROM (").Then(inner), Lit(close));
          }
        }
        Ok(out)
  }

  /** A condition as text and arguments (nothing for the empty condition). */
  function CondWriteTo(c: Cond): (r: Result<Writer>)
    ensures CondWellFormed(c) && r.Ok? ==> r.value.Balanced()
    decreases CondDepth(c), c, 1, 0
  {
    match c
    case NoCond => Ok(Empty)
    case Compare(col, op, v) =>
      HolesAppend(col + op.Symbol(), "?");
      assert Holes("?") == 1;
      assert Plain(op.Symbol());
      LitBalanced(col + op.Symbol());
      Ok(Writer(col + op.Symbol() + "?", [v]))
    case Expr(sql, args) => Ok(Writer(sql, args))
    case NotIn(col, q) =>
      var inner :- WriteTo(q);
      LitBalanced(col + " NOT IN (");
      LitBalanced(")");
      ThenBalanced(Lit(col + " NOT IN ("), inner);
      ThenBalanced(Lit(col + " NOT IN (").Then(inner), Lit(")"));
      Ok(Lit(col + " NOT IN (").Then(inner).Then(Lit(")")))
    case And(l, r) =>
      var lw :- OperandWriteTo(l);
      var rw :- OperandWriteTo(r);
      LitBalanced(" AND ");
      ThenBalanced(lw, Lit(" AND "));
      ThenBalanced(lw.Then(Lit(" AND ")), rw);
      Ok(lw.Then(Lit(" AND ")).Then(rw))
  }

  /** An operand of AND; raw expressions are parenthesised. */
  function OperandWriteTo(c: Cond): (r: Result<Writer>)
    ensures CondWellFormed(c) && r.Ok? ==> r.value.Balanced()
    decreases CondDepth(c), c, 2, 0
  {
    var w :- CondWriteTo(c);
    LitBalanced("(");
    LitBalanced(")");
    ThenBalanced(Lit("("), w);
    ThenBalanced(Lit("(").Then(w), Lit(")"));
    Ok(if c.Expr? then Lit("(").Then(w).Then(Lit(")")) else w)
  }

  /** A HAVING or ORDER BY clause behind its keyword. */
  function ClauseWriteTo(keyword: string, c: Clause): (r: Result<Writer>)
    ensures Plain(keyword) && ClauseWellFormed(c) && r.Ok? ==> r.value.Balanced()
    decreases ClauseDepth(c), c, 2, 0
  {
    match c
    case Omitted => Ok(Empty)
    case Raw(sql) =>
      LitBalanced(keyword + sql);
      Ok(if sql == "" then Empty else Lit(keyword + sql))
    case Condition(x) =>
      var w :- CondWriteTo(x);
      LitBalanced(keyword);
      ThenBalanced(Lit(keyword), w);
      Ok(Lit(keyword).Then(w))
    case Unsupported => Fail(UnsupportedClause)
  }

  /** The members of a UNION from the i-th on: each parenthesised, joined by
      ` UNION <KEYWORD> `. */
  function UnionWriteTo(b: Builder, i: nat): (r: Result<Writer>)
    requires b.limitation.None?
    requires i <= |b.branches|
    ensures WellFormed(b) && r.Ok? ==> r.value.Balanced()
    decreases Depth(b), b, 0, |b.branches| - i
  {
    if i == |b.branches| then Ok(Empty)
    else
      var br := b.branches[i];
      BranchDepth(b.branches, i);
      var w :- WriteTo(br.query);
      var rest :- UnionWriteTo(b, i + 1);
      var open := if i == 0 then "(" else " UNION " + ToUpper(br.keyword) + " (";
      assert WellFormed(b) ==> Plain(open) && WellFormed(br.query) by {
        if WellFormed(b) {
          BranchWellFormed(b.branches, i);
          UpperPlain(br.keyword);
        }
      }
      LitBalanced(open);
      LitBalanced(")");
      ThenBalanced(Lit(open), w);
      ThenBalanced(Lit(open).Then(w), Lit(")"));
      ThenBalanced(Lit(open).Then(w).Then(Lit(")")), rest);
      Ok(Lit(open).Then(w).Then(Lit(")")).Then(rest))
  }
}

=== FILE: select_cases.dfy ===
/** The statements of TestBuilder_Select, TestBuilderSelectGroupBy,
    TestBuilderSelectOrderBy and TestBuilder_From, with the text, arguments
    or error each one is expected to produce. Each case is proved from the
    general rendering lemmas; the `...At` helpers take the builder as a
    parameter so that its literal value is not unfolded needlessly. */
module SelectCases {
  import opened Text
  import opened Builders
  import opened Render
  import opened SelectRendering

  /** `Eq{col: v}` renders as `col=?` bound to v. */
  lemma EqText(col: string, v: Value)
    ensures CondWriteTo(Compare(col, Eq, v)) == Ok(Writer(col + "=?", [v]))
  {
    assert col + Eq.Symbol() + "?" == col + "=?";
  }

  // -------------------------------------------------------------------
  // TestBuilder_Select
  // -------------------------------------------------------------------

  lemma SelectPlain()
    ensures WriteTo(Select(["c, d"]).From("table1")) == Ok(Lit("SELECT c, d FROM table1"))
  {
    SelectPlainAt(Select(["c, d"]).From("table1"));
  }

  lemma SelectPlainAt(b: Builder)
    requires Simple(b) && b.selects == ["c, d"] && b.source == Table("table1") && b.cond == NoCond
    ensures WriteTo(b) == Ok(Lit("SELECT c, d FROM table1"))
  {
    assert Columns(["c, d"]) == "c, d";
    assert CondWriteTo(NoCond) == Ok(Empty);
    TableSelect(b, Empty);
    assert WhereText(b, Empty) == "";
    SelectPlainText();
  }

  lemma SelectPlainText()
    ensures "SELECT " + "c, d" + " FROM " + "table1" + "" == "SELECT c, d FROM table1"
  {
    assert "SELECT " + "c, d" == "SELECT c, d";
    assert "SELECT c, d" + " FROM " == "SELECT c, d FROM ";
    assert "SELECT c, d FROM " + "table1" == "SELECT c, d FROM table1";
  }

  lemma SelectWhere()
    ensures WriteTo(Select(["c, d"]).From("table1").Where(Compare("a", Eq, Int(1))))
      == Ok(Writer("SELECT c, d FROM table1 WHERE a=?", [Int(1)]))
  {
    SelectWhereAt(Select(["c, d"]).From("table1").Where(Compare("a", Eq, Int(1))));
  }

  lemma SelectWhereAt(b: Builder)
    requires Simple(b) && b.selects == ["c, d"] && b.source == Table("table1")
    requires b.cond == Compare("a", Eq, Int(1))
    ensures WriteTo(b) == Ok(Writer("SELECT c, d FROM table1 WHERE a=?", [Int(1)]))
  {
    assert Columns(["c, d"]) == "c, d";
    EqText("a", Int(1));
    assert "a" + "=?" == "a=?";
    TableSelect(b, Writer("a=?", [Int(1)]));
    assert WhereText(b, Writer("a=?", [Int(1)])) == " WHERE " + "a=?";
    SelectWhereText();
  }

  lemma SelectWhereText()
    ensures "SELECT " + "c, d" + " FROM " + "table1" + (" WHERE " + "a=?") == "SELECT c, d FROM table1 WHERE a=?"
  {
    SelectPlainText();
    assert " WHERE " + "a=?" == " WHERE a=?";
    assert "SELECT c, d FROM table1" + " WHERE a=?" == "SELECT c, d FROM table1 WHERE a=?";
  }

  lemma SelectWithoutTable()
    ensures WriteTo(Select(["c, d"])) == Fail(NoTableName)
  {
    NoTableNameFails(Select(["c, d"]));
  }

  // -------------------------------------------------------------------
  // TestBuilderSelectGroupBy, TestBuilderSelectOrderBy
  // -------------------------------------------------------------------

  /** `Select("c").From("table1")` with the remaining clauses left open. */
  predicate OverTable1(b: Builder) {
    && b.kind == SelectKind && b.limitation.None?
    && b.selects == ["c"] && b.source == Table("table1") && b.cond == NoCond
  }

  lemma OverTable1Head(b: Builder)
    requires OverTable1(b)
    ensures FromWriteTo(b) == Ok(Lit(" FROM table1"))
    ensures CondWriteTo(b.cond) == Ok(Empty)
    ensures Columns(b.selects) == "c" && WhereText(b, Empty) == ""
  {
    assert Columns(["c"]) == "c";
    assert " FROM " + "table1" == " FROM table1";
  }

  lemma OverTable1Text()
    ensures "SELECT " + "c" + " FROM table1" + "" == "SELECT c FROM table1"
  {
    assert "SELECT " + "c" == "SELECT c";
    assert "SELECT c" + " FROM table1" == "SELECT c FROM table1";
  }

  lemma NoArgsBefore(x: seq<Value>, y: seq<Value>)
    ensures [] + [] + x + y == x + y
  {
  }

  /** `Select("c").From("table1")` followed by its GROUP BY, HAVING and
      ORDER BY parts. */
  lemma OverTable1Layout(b: Builder, hw: Writer, ow: Writer)
    requires OverTable1(b)
    requires ClauseWriteTo(" HAVING ", b.having) == Ok(hw)
    requires ClauseWriteTo(" ORDER BY ", b.orderBy) == Ok(ow)
    ensures WriteTo(b) == Ok(Writer("SELECT c FROM table1" + GroupText(b) + hw.text + ow.text, hw.args + ow.args))
  {
    OverTable1Head(b);
    ClauseLayout(b, Lit(" FROM table1"), Empty, hw, ow);
    OverTable1Text();
    NoArgsBefore(hw.args, ow.args);
  }

  lemma GroupByHavingText()
    ensures WriteTo(Select(["c"]).From("table1").GroupBy("c").Having(Raw("count(c)=1")))
      == Ok(Lit("SELECT c FROM table1 GROUP BY c HAVING count(c)=1"))
  {
    GroupByHavingTextAt(Select(["c"]).From("table1").GroupBy("c").Having(Raw("count(c)=1")));
  }

  lemma GroupByHavingTextAt(b: Builder)
    requires OverTable1(b) && b.groupBy == "c" && b.having == Raw("count(c)=1") && b.orderBy == Omitted
    ensures WriteTo(b) == Ok(Lit("SELECT c FROM table1 GROUP BY c HAVING count(c)=1"))
  {
    RawClause(" HAVING ", "count(c)=1");
    OverTable1Layout(b, Lit(" HAVING " + "count(c)=1"), Empty);
    assert GroupText(b) == " GROUP BY " + "c";
    GroupByHavingTextText();
    assert Empty.args + Empty.args == [];
  }

  lemma GroupByHavingTextText()
    ensures "SELECT c FROM table1" + (" GROUP BY " + "c") + (" HAVING " + "count(c)=1") + ""
      == "SELECT c FROM table1 GROUP BY c HAVING count(c)=1"
  {
    GroupByC();
    assert " HAVING " + "count(c)=1" == " HAVING count(c)=1";
    assert "SELECT c FROM table1 GROUP BY c" + " HAVING count(c)=1" == "SELECT c FROM table1 GROUP BY c HAVING count(c)=1";
  }

  lemma GroupByC()
    ensures "SELECT c FROM table1" + (" GROUP BY " + "c") == "SELECT c FROM table1 GROUP BY c"
  {
    assert " GROUP BY " + "c" == " GROUP BY c";
  }

  lemma GroupByHavingCond()
    ensures WriteTo(Select(["c"]).From("table1").GroupBy("c").Having(Condition(Compare("count(c)", Eq, Int(1)))))
      == Ok(Writer("SELECT c FROM table1 GROUP BY c HAVING count(c)=?", [Int(1)]))
  {
    GroupByHavingCondAt(Select(["c"]).From("table1").GroupBy("c").Having(Condition(Compare("count(c)", Eq, Int(1)))));
  }

  lemma GroupByHavingCondAt(b: Builder)
    requires OverTable1(b) && b.groupBy == "c" && b.orderBy == Omitted
    requires b.having == Condition(Compare("count(c)", Eq, Int(1)))
    ensures WriteTo(b) == Ok(Writer("SELECT c FROM table1 GROUP BY c HAVING count(c)=?", [Int(1)]))
  {
    EqText("count(c)", Int(1));
    var hw := Writer(" HAVING " + ("count(c)" + "=?"), [Int(1)]);
    CondClause(" HAVING ", b.having.cond, Writer("count(c)" + "=?", [Int(1)]));
    OverTable1Layout(b, hw, Empty);
    assert [Int(1)] + [] == [Int(1)];
    assert GroupText(b) == " GROUP BY " + "c";
    GroupByHavingCondText();
  }

  lemma GroupByHavingCondText()
    ensures "SELECT c FROM table1" + (" GROUP BY " + "c") + (" HAVING " + ("count(c)" + "=?")) + ""
      == "SELECT c FROM table1 GROUP BY c HAVING count(c)=?"
  {
    GroupByC();
    assert " HAVING " + ("count(c)" + "=?") == " HAVING count(c)=?";
    assert "SELECT c FROM table1 GROUP BY c" + " HAVING count(c)=?" == "SELECT c FROM table1 GROUP BY c HAVING count(c)=?";
  }

  lemma HavingUnsupported()
    ensures WriteTo(Select(["c"]).From("table1").GroupBy("c").Having(Unsupported)) == Fail(UnsupportedClause)
  {
    var b := Select(["c"]).From("table1").GroupBy("c").Having(Unsupported);
    OverTable1Head(b);
    UnsupportedClauseFails(b);
  }

  lemma OrderByText()
    ensures WriteTo(Select(["c"]).From("table1").OrderBy(Raw("c DESC")))
      == Ok(Lit("SELECT c FROM table1 ORDER BY c DESC"))
  {
    OrderByTextAt(Select(["c"]).From("table1").OrderBy(Raw("c DESC")));
  }

  lemma OrderByTextAt(b: Builder)
    requires OverTable1(b) && b.groupBy == "" && b.having == Omitted && b.orderBy == Raw("c DESC")
    ensures WriteTo(b) == Ok(Lit("SELECT c FROM table1 ORDER BY c DESC"))
  {
    RawClause(" ORDER BY ", "c DESC");
    OverTable1Layout(b, Empty, Lit(" ORDER BY " + "c DESC"));
    OrderByTextText();
    assert Empty.args + Empty.args == [];
  }

  lemma OrderByTextText()
    ensures "SELECT c FROM table1" + "" + "" + (" ORDER BY " + "c DESC") == "SELECT c FROM table1 ORDER BY c DESC"
  {
    assert " ORDER BY " + "c DESC" == " ORDER BY c DESC";
    assert "SELECT c FROM table1" + " ORDER BY c DESC" == "SELECT c FROM table1 ORDER BY c DESC";
  }

  /** The ORDER BY expression of TestBuilderSelectOrderBy. */
  const CaseWhen := "CASE WHEN owner_name LIKE ? THEN 0 ELSE 1 END"

  lemma OrderByExpr()
    ensures WriteTo(Select(["c"]).From("table1").OrderBy(Condition(Expr(CaseWhen, [Str("a")]))))
      == Ok(Writer("SELECT c FROM table1 ORDER BY " + CaseWhen, [Str("a")]))
  {
    OrderByExprAt(Select(["c"]).From("table1").OrderBy(Condition(Expr(CaseWhen, [Str("a")]))), CaseWhen, [Str("a")]);
  }

  lemma OrderByExprAt(b: Builder, e: string, args: seq<Value>)
    requires OverTable1(b) && b.groupBy == "" && b.having == Omitted
    requires b.orderBy == Condition(Expr(e, args))
    ensures WriteTo(b) == Ok(Writer("SELECT c FROM table1 ORDER BY " + e, args))
  {
    CondClause(" ORDER BY ", b.orderBy.cond, Writer(e, args));
    assert ClauseWriteTo(" HAVING ", b.having) == Ok(Empty);
    OverTable1Layout(b, Empty, Writer(" ORDER BY " + e, args));
    assert GroupText(b) == "";
    OrderByExprText(e);
    assert [] + args == args;
  }

  lemma OrderByExprText(e: string)
    ensures "SELECT c FROM table1" + "" + "" + (" ORDER BY " + e) == "SELECT c FROM table1 ORDER BY " + e
  {
    assert "SELECT c FROM table1" + " ORDER BY " == "SELECT c FROM table1 ORDER BY ";
  }

  // -------------------------------------------------------------------
  // TestBuilder_From
  // -------------------------------------------------------------------

  lemma FromTable()
    ensures WriteTo(Select(["c"]).From("table1")) == Ok(Lit("SELECT c FROM table1"))
  {
    FromTableAt(Select(["c"]).From("table1"));
  }

  lemma FromTableAt(b: Builder)
    requires OverTable1(b) && b.groupBy == "" && b.having == Omitted && b.orderBy == Omitted
    ensures WriteTo(b) == Ok(Lit("SELECT c FROM table1"))
  {
    assert ClauseWriteTo(" HAVING ", b.having) == Ok(Empty);
    assert ClauseWriteTo(" ORDER BY ", b.orderBy) == Ok(Empty);
    OverTable1Layout(b, Empty, Empty);
    assert GroupText(b) == "";
    assert "SELECT c FROM table1" + "" + "" + "" == "SELECT c FROM table1";
    assert Empty.args + Empty.args == [];
  }

  /** `Select("id").From("table1").Where(Eq{"a": v})`, in any dialect. */
  predicate Sub(q: Builder, v: int) {
    && Simple(q) && q.selects == ["id"] && q.source == Table("table1")
    && q.cond == Compare("a", Eq, Int(v))
  }

  const SubText := "SELECT id FROM table1 WHERE a=?"

  lemma SubRender(q: Builder, v: int)
    requires Sub(q, v)
    ensures WriteTo(q) == Ok(Writer(SubText, [Int(v)]))
  {
    assert Columns(["id"]) == "id";
    EqText("a", Int(v));
    assert "a" + "=?" == "a=?";
    TableSelect(q, Writer("a=?", [Int(v)]));
    assert WhereText(q, Writer("a=?", [Int(v)])) == " WHERE " + "a=?";
    SubTextParts();
  }

  lemma SubTextParts()
    ensures "SELECT " + "id" + " FROM " + "table1" + (" WHERE " + "a=?") == SubText
  {
    assert "SELECT " + "id" == "SELECT id";
    assert "SELECT id" + " FROM " == "SELECT id FROM ";
    assert "SELECT id FROM " + "table1" == "SELECT id FROM table1";
    assert " WHERE " + "a=?" == " WHERE a=?";
  }

  /** `Select("sub.id").From(q, alias).Where(Eq{"b": 1})` or, with
      `filtered` false, without the filter. */
  predicate Outer(b: Builder, q: Builder, alias: string, filtered: bool) {
    && Simple(b) && !b.nested && b.selects == ["sub.id"] && b.source == Derived(q, alias)
    && b.cond == (if filtered then Compare("b", Eq, Int(1)) else NoCond)
  }

  /** The derived table under alias `sub` and the outer filter `b=?`: the
      inner arguments come first, then the outer one. */
  lemma AliasedAt(b: Builder, q: Builder, inner: Writer)
    requires Outer(b, q, "sub", true)
    requires q.kind.IsQuery() && (q.dialect == "" || q.dialect == b.dialect)
    requires WriteTo(q) == Ok(inner)
    ensures WriteTo(b) == Ok(Writer("SELECT sub.id FROM (" + inner.text + ") sub WHERE b=?", inner.args + [Int(1)]))
  {
    EqText("b", Int(1));
    assert "b" + "=?" == "b=?";
    DerivedSelect(b, inner, Writer("b=?", [Int(1)]));
    assert Columns(["sub.id"]) == "sub.id";
    AliasedText(inner.text);
  }

  lemma AliasedText(t: string)
    ensures "SELECT " + "sub.id" + (" FROM (" + t + ")" + (" " + "sub")) + (" WHERE " + "b=?")
      == "SELECT sub.id FROM (" + t + ") sub WHERE b=?"
  {
    assert "SELECT " + "sub.id" + " FROM (" == "SELECT sub.id FROM (";
    assert ")" + (" " + "sub") + (" WHERE " + "b=?") == ") sub WHERE b=?";
  }

  /** The aliased, filtered outer query of TestBuilder_From over any inner
      query, in dialect `d`. */
  lemma AliasedCase(d: string, q: Builder, t: string, args: seq<Value>)
    requires q.kind.IsQuery() && (q.dialect == "" || q.dialect == d)
    requires WriteTo(q) == Ok(Writer(t, args))
    ensures WriteTo(Dialect(d).Select(["sub.id"]).FromQuery(q, "sub").Where(Compare("b", Eq, Int(1))))
      == Ok(Writer("SELECT sub.id FROM (" + t + ") sub WHERE b=?", args + [Int(1)]))
  {
    AliasedAt(Dialect(d).Select(["sub.id"]).FromQuery(q, "sub").Where(Compare("b", Eq, Int(1))), q, Writer(t, args));
  }

  lemma FromSubAliased()
    ensures WriteTo(Select(["sub.id"]).FromQuery(Select(["id"]).From("table1").Where(Compare("a", Eq, Int(1))), "sub")
                      .Where(Compare("b", Eq, Int(1))))
      == Ok(Writer("SELECT sub.id FROM (" + SubText + ") sub WHERE b=?", [Int(1), Int(1)]))
  {
    var q := Select(["id"]).From("table1").Where(Compare("a", Eq, Int(1)));
    SubRender(q, 1);
    AliasedCase("", q, SubText, [Int(1)]);
    assert [Int(1)] + [Int(1)] == [Int(1), Int(1)];
  }

  lemma FromSubUnaliasedFiltered()
    ensures WriteTo(Select(["sub.id"]).FromQuery(Select(["id"]).From("table1").Where(Compare("a", Eq, Int(1))), "")
                      .Where(Compare("b", Eq, Int(1))))
      == Fail(UnnamedDerivedTable)
  {
    UnnamedDerivedTableFails(Select(["sub.id"]).FromQuery(Select(["id"]).From("table1").Where(Compare("a", Eq, Int(1))), "")
                      .Where(Compare("b", Eq, Int(1))));
  }

  lemma FromSubUnaliased()
    ensures WriteTo(Select(["sub.id"]).FromQuery(Select(["id"]).From("table1").Where(Compare("a", Eq, Int(1))), ""))
      == Ok(Writer("SELECT sub.id FROM (" + SubText + ")", [Int(1)]))
  {
    var q := Select(["id"]).From("table1").Where(Compare("a", Eq, Int(1)));
    SubRender(q, 1);
    UnaliasedAt(Select(["sub.id"]).FromQuery(q, ""), q, Writer(SubText, [Int(1)]));
  }

  lemma UnaliasedAt(b: Builder, q: Builder, inner: Writer)
    requires Outer(b, q, "", false) && b.dialect == "" && q.dialect == "" && q.kind.IsQuery()
    requires WriteTo(q) == Ok(inner)
    ensures WriteTo(b) == Ok(Writer("SELECT sub.id FROM (" + inner.text + ")", inner.args))
  {
    DerivedSelect(b, inner, Empty);
    assert Columns(["sub.id"]) == "sub.id";
    assert WhereText(b, Empty) == "";
    UnaliasedText(inner.text);
    assert inner.args + Empty.args == inner.args;
  }

  lemma UnaliasedText(t: string)
    ensures "SELECT " + "sub.id" + (" FROM (" + t + ")" + "") + "" == "SELECT sub.id FROM (" + t + ")"
  {
    assert "SELECT " + "sub.id" + " FROM (" == "SELECT sub.id FROM (";
  }

  /** `Sub(1).Union("all", Sub(2))`: both members parenthesised. */
  const UnionText := "(" + SubText + ") UNION ALL (" + SubText + ")"

  lemma UnionAt(q: Builder, t: string)
    requires q.kind == UnionKind && q.limitation.None? && |q.branches| == 2 && q.branches[1].keyword == "all"
    requires WriteTo(q.branches[0].query) == Ok(Writer(t, [Int(1)]))
    requires WriteTo(q.branches[1].query) == Ok(Writer(t, [Int(2)]))
    ensures WriteTo(q) == Ok(Writer("(" + t + ") UNION ALL (" + t + ")", [Int(1), Int(2)]))
  {
    UnionOfTwo(q, Writer(t, [Int(1)]), Writer(t, [Int(2)]));
    UpperAll();
    UnionTextParts(t);
    assert [Int(1)] + [Int(2)] == [Int(1), Int(2)];
  }

  lemma UnionOfSubs(s1: Builder, s2: Builder)
    requires Sub(s1, 1) && Sub(s2, 2) && s1.dialect == ""
    ensures var q := s1.Union("all", s2);
      q.kind == UnionKind && q.dialect == "" && WriteTo(q) == Ok(Writer(UnionText, [Int(1), Int(2)]))
  {
    UnionOfSelects(s1, "all", s2);
    SubRender(s1, 1);
    SubRender(s2, 2);
    UnionAt(s1.Union("all", s2), SubText);
  }

  /** Union of two SELECT builders: a fresh UNION builder with both as members. */
  lemma UnionOfSelects(s1: Builder, kw: string, s2: Builder)
    requires s1.kind == SelectKind
    ensures var q := s1.Union(kw, s2);
      q.kind == UnionKind && q.limitation.None? && q.branches == [Branch("", s1), Branch(kw, s2)]
  {
  }

  lemma UpperAll()
    ensures ToUpper("all") == "ALL"
  {
  }

  lemma UnionTextParts(t: string)
    ensures "(" + t + ") UNION " + "ALL" + " (" + t + ")" == "(" + t + ") UNION ALL (" + t + ")"
  {
    var u := ") UNION " + "ALL" + " (";
    assert u == ") UNION ALL (";
    assert "(" + t + ") UNION " + "ALL" + " (" == "(" + t + u;
  }

  lemma FromUnionAliased()
    ensures WriteTo(Select(["sub.id"]).FromQuery(
                      Select(["id"]).From("table1").Where(Compare("a", Eq, Int(1))).Union(
                        "all", Select(["id"]).From("table1").Where(Compare("a", Eq, Int(2)))), "sub")
                      .Where(Compare("b", Eq, Int(1))))
      == Ok(Writer("SELECT sub.id FROM (" + UnionText + ") sub WHERE b=?", [Int(1), Int(2), Int(1)]))
  {
    var s1 := Select(["id"]).From("table1").Where(Compare("a", Eq, Int(1)));
    var s2 := Select(["id"]).From("table1").Where(Compare("a", Eq, Int(2)));
    var q := s1.Union("all", s2);
    UnionOfSubs(s1, s2);
    AliasedCase("", q, UnionText, [Int(1), Int(2)]);
    assert [Int(1), Int(2)] + [Int(1)] == [Int(1), Int(2), Int(1)];
  }

  lemma FromUnionUnaliased()
    ensures WriteTo(Select(["sub.id"]).FromQuery(
                      Select(["id"]).From("table1").Where(Compare("a", Eq, Int(1))).Union(
                        "all", Select(["id"]).From("table1").Where(Compare("a", Eq, Int(2)))), "")
                      .Where(Compare("b", Eq, Int(1))))
      == Fail(UnnamedDerivedTable)
  {
    var q := Select(["id"]).From("table1").Where(Compare("a", Eq, Int(1))).Union(
               "all", Select(["id"]).From("table1").Where(Compare("a", Eq, Int(2))));
    UnnamedDerivedTableFails(Select(["sub.id"]).FromQuery(q, "").Where(Compare("b", Eq, Int(1))));
  }

  lemma FromInsert()
    ensures WriteTo(Select(["c"]).FromQuery(Insert(Compare("a", Eq, Int(1))).From("table1"), "table1"))
      == Fail(UnexpectedSubQuery)
  {
    UnexpectedSubQueryFails(Select(["c"]).FromQuery(Insert(Compare("a", Eq, Int(1))).From("table1"), "table1"));
  }

  lemma FromDelete()
    ensures WriteTo(Select(["c"]).FromQuery(Delete(Compare("a", Eq, Int(1))).From("table1"), "table1"))
      == Fail(UnexpectedSubQuery)
  {
    UnexpectedSubQueryFails(Select(["c"]).FromQuery(Delete(Compare("a", Eq, Int(1))).From("table1"), "table1"));
  }

  /** `MySQL()` and `Oracle()`: fresh builders in those dialects. */
  function MySQL(): Builder {
    Dialect("mysql")
  }

  function Oracle(): Builder {
    Dialect("oracle")
  }

  lemma FromOtherDialect()
    ensures WriteTo(MySQL().Select(["sub.id"]).FromQuery(
                      Oracle().Select(["id"]).From("table1").Where(Compare("a", Eq, Int(1))), "sub")
                      .Where(Compare("b", Eq, Int(1))))
      == Fail(InconsistentDialect)
  {
    InconsistentDialectFails(MySQL().Select(["sub.id"]).FromQuery(
                      Oracle().Select(["id"]).From("table1").Where(Compare("a", Eq, Int(1))), "sub")
                      .Where(Compare("b", Eq, Int(1))));
  }

  lemma FromSameDialect()
    ensures WriteTo(MySQL().Select(["sub.id"]).FromQuery(
                      MySQL().Select(["id"]).From("table1").Where(Compare("a", Eq, Int(1))), "sub")
                      .Where(Compare("b", Eq, Int(1))))
      == Ok(Writer("SELECT sub.id FROM (" + SubText + ") sub WHERE b=?", [Int(1), Int(1)]))
  {
    var q := MySQL().Select(["id"]).From("table1").Where(Compare("a", Eq, Int(1)));
    SubRender(q, 1);
    AliasedCase("mysql", q, SubText, [Int(1)]);
    assert [Int(1)] + [Int(1)] == [Int(1), Int(1)];
  }

  lemma FromDialectUnset()
    ensures WriteTo(MySQL().Select(["sub.id"]).FromQuery(
                      Select(["id"]).From("table1").Where(Compare("a", Eq, Int(1))), "sub")
                      .Where(Compare("b", Eq, Int(1))))
      == Ok(Writer("SELECT sub.id FROM (" + SubText + ") sub WHERE b=?", [Int(1), Int(1)]))
  {
    var q := Select(["id"]).From("table1").Where(Compare("a", Eq, Int(1)));
    SubRender(q, 1);
    AliasedCase("mysql", q, SubText, [Int(1)]);
    assert [Int(1)] + [Int(1)] == [Int(1), Int(1)];
  }
}

=== FILE: select_rendering.dfy ===
/** Properties of the SELECT renderer: the clause layout, derived tables and
    their argument order, and the error each malformed composition yields.
    The concrete cases are those of TestBuilder_Select, TestBuilderSelectGroupBy,
    TestBuilderSelectOrderBy and TestBuilder_From. */
module SelectRendering {
  import opened Text
  import opened Builders
  import opened Render

  /** A SELECT without limitation and without GROUP BY / HAVING / ORDER BY. */
  predicate Simple(b: Builder) {
    && b.kind == SelectKind
    && b.limitation.None?
    && b.groupBy == ""
    && b.having == Omitted
    && b.orderBy == Omitted
  }

  /** ` WHERE <cond>` when the filter is valid, nothing otherwise. */
  function WhereText(b: Builder, cw: Writer): string {
    if b.cond.IsValid() then " WHERE " + cw.text else ""
  }

  /** ` GROUP BY <g>` when a grouping is set, nothing otherwise. */
  function GroupText(b: Builder): string {
    if b.groupBy == "" then "" else " GROUP BY " + b.groupBy
  }

  /** The clause order of a SELECT: head, FROM part, WHERE, GROUP BY,
      HAVING, ORDER BY; the arguments follow the same order, so each
      placeholder meets its own argument. */
  lemma ClauseLayout(b: Builder, from: Writer, cw: Writer, hw: Writer, ow: Writer)
    requires b.kind == SelectKind && b.limitation.None?
    requires FromWriteTo(b) == Ok(from)
    requires CondWriteTo(b.cond) == Ok(cw)
    requires ClauseWriteTo(" HAVING ", b.having) == Ok(hw)
    requires ClauseWriteTo(" ORDER BY ", b.orderBy) == Ok(ow)
    ensures WriteTo(b) == Ok(Writer(
      "SELECT " + Columns(b.selects) + from.text + WhereText(b, cw) + GroupText(b) + hw.text + ow.text,
      from.args + cw.args + hw.args + ow.args))
  {
    PlainStep(b);
    WhereWriter(b, cw);
    assert (if b.groupBy == "" then Empty else Lit(" GROUP BY " + b.groupBy)) == Lit(GroupText(b));
    Chain("SELECT " + Columns(b.selects), from, Writer(WhereText(b, cw), cw.args), GroupText(b), hw, ow);
  }

  lemma PlainStep(b: Builder)
    requires b.kind == SelectKind && b.limitation.None?
    ensures WriteTo(b) == SelectWriteTo(b)
  {
  }

  lemma WhereWriter(b: Builder, cw: Writer)
    requires CondWriteTo(b.cond) == Ok(cw)
    ensures (if b.cond.IsValid() then Lit(" WHERE ").Then(cw) else Empty) == Writer(WhereText(b, cw), cw.args)
  {
  }

  lemma Chain(h: string, f: Writer, w: Writer, g: string, hw: Writer, ow: Writer)
    ensures Lit(h).Then(f).Then(w).Then(Lit(g)).Then(hw).Then(ow)
      == Writer(h + f.text + w.text + g + hw.text + ow.text, f.args + w.args + hw.args + ow.args)
  {
    assert [] + f.args + w.args + [] + hw.args + ow.args == f.args + w.args + hw.args + ow.args;
  }

  /** The layout without GROUP BY, HAVING and ORDER BY. */
  lemma SelectLayout(b: Builder, from: Writer, cw: Writer)
    requires Simple(b)
    requires FromWriteTo(b) == Ok(from)
    requires CondWriteTo(b.cond) == Ok(cw)
    ensures WriteTo(b) == Ok(Writer(
      "SELECT " + Columns(b.selects) + from.text + WhereText(b, cw), from.args + cw.args))
  {
    ClauseLayout(b, from, cw, Empty, Empty);
    var t := "SELECT " + Columns(b.selects) + from.text + WhereText(b, cw);
    assert t + "" + "" + "" == t;
    assert from.args + cw.args + [] + [] == from.args + cw.args;
  }

  /** A HAVING or ORDER BY clause given as text is written behind its
      keyword, without arguments; empty text writes nothing. */
  lemma RawClause(keyword: string, sql: string)
    ensures ClauseWriteTo(keyword, Raw(sql)) == Ok(if sql == "" then Empty else Lit(keyword + sql))
  {
  }

  /** A HAVING or ORDER BY clause given as a condition is written behind
      its keyword, with the condition's arguments. */
  lemma CondClause(keyword: string, c: Cond, w: Writer)
    requires CondWriteTo(c) == Ok(w)
    ensures ClauseWriteTo(keyword, Condition(c)) == Ok(Writer(keyword + w.text, w.args))
  {
    assert [] + w.args == w.args;
  }

  /** HAVING or ORDER BY given a value that is neither text nor a
      condition: the render fails. */
  lemma UnsupportedClauseFails(b: Builder)
    requires b.kind == SelectKind && b.limitation.None?
    requires FromWriteTo(b).Ok? && CondWriteTo(b.cond).Ok?
    requires b.having == Unsupported || (ClauseWriteTo(" HAVING ", b.having).Ok? && b.orderBy == Unsupported)
    ensures WriteTo(b) == Fail(UnsupportedClause)
  {
    PlainStep(b);
  }

  /** A SELECT over a table: `SELECT cols FROM t[ WHERE c]`, with the
      filter's arguments. */
  lemma TableSelect(b: Builder, cw: Writer)
    requires Simple(b) && b.source.Table?
    requires CondWriteTo(b.cond) == Ok(cw)
    ensures WriteTo(b) == Ok(Writer(
      "SELECT " + Columns(b.selects) + " FROM " + b.source.name + WhereText(b, cw),
      cw.args))
  {
    var from := Lit(" FROM " + b.source.name);
    assert FromWriteTo(b) == Ok(from);
    SelectLayout(b, from, cw);
    assert from.args + cw.args == cw.args;
    TableText(Columns(b.selects), b.source.name, WhereText(b, cw));
  }

  lemma TableText(cols: string, t: string, w: string)
    ensures "SELECT " + cols + (" FROM " + t) + w == "SELECT " + cols + " FROM " + t + w
  {
  }

  /** The FROM part of a derived table: `(<inner>)`, then the alias if any. */
  lemma DerivedFrom(b: Builder, inner: Writer)
    requires b.limitation.None? && b.source.Derived?
    requires b.source.alias != "" || !b.cond.IsValid() || b.nested
    requires b.source.query.dialect == "" || b.dialect == "" || b.source.query.dialect == b.dialect
    requires b.source.query.kind.IsQuery()
    requires WriteTo(b.source.query) == Ok(inner)
    ensures FromWriteTo(b) == Ok(Writer(
      " FROM (" + inner.text + ")" + (if b.source.alias == "" then "" else " " + b.source.alias),
      inner.args))
  {
    DerivedFromStep(b, inner);
    CloseText(inner, b.source.alias);
  }

  lemma DerivedFromStep(b: Builder, inner: Writer)
    requires b.limitation.None? && b.source.Derived?
    requires b.source.alias != "" || !b.cond.IsValid() || b.nested
    requires b.source.query.dialect == "" || b.dialect == "" || b.source.query.dialect == b.dialect
    requires b.source.query.kind.IsQuery()
    requires WriteTo(b.source.query) == Ok(inner)
    ensures FromWriteTo(b) == Ok(Lit(" FROM (").Then(inner).Then(
      Lit(if b.source.alias == "" then ")" else ") " + b.source.alias)))
  {
  }

  lemma CloseText(inner: Writer, alias: string)
    ensures Lit(" FROM (").Then(inner).Then(Lit(if alias == "" then ")" else ") " + alias))
      == Writer(" FROM (" + inner.text + ")" + (if alias == "" then "" else " " + alias), inner.args)
  {
    assert inner.args + [] == inner.args;
  }

  /** A derived table is written `(<inner>)` followed by its alias, if any;
      the arguments are the inner query's, then the outer filter's: the
      order in which their placeholders appear. */
  lemma DerivedSelect(b: Builder, inner: Writer, cw: Writer)
    requires Simple(b) && b.source.Derived?
    requires b.source.alias != "" || !b.cond.IsValid() || b.nested
    requires b.source.query.dialect == "" || b.dialect == "" || b.source.query.dialect == b.dialect
    requires b.source.query.kind.IsQuery()
    requires WriteTo(b.source.query) == Ok(inner)
    requires CondWriteTo(b.cond) == Ok(cw)
    ensures WriteTo(b) == Ok(Writer(
      "SELECT " + Columns(b.selects) + (" FROM (" + inner.text + ")" +
        (if b.source.alias == "" then "" else " " + b.source.alias)) + WhereText(b, cw),
      inner.args + cw.args))
  {
    var tail := if b.source.alias == "" then "" else " " + b.source.alias;
    DerivedFrom(b, inner);
    SelectLayout(b, Writer(" FROM (" + inner.text + ")" + tail, inner.args), cw);
  }

  /** One member of a UNION: the first is opened by `(`, every later one
      by ` UNION <KEYWORD> (`; its text and arguments precede those of the
      members after it. */
  lemma UnionStep(b: Builder, i: nat, w: Writer, rest: Writer)
    requires b.limitation.None? && i < |b.branches|
    requires WriteTo(b.branches[i].query) == Ok(w)
    requires UnionWriteTo(b, i + 1) == Ok(rest)
    ensures i == 0 ==> UnionWriteTo(b, i) == Ok(Writer("(" + w.text + ")" + rest.text, w.args + rest.args))
    ensures i > 0 ==> UnionWriteTo(b, i) == Ok(Writer(
      " UNION " + ToUpper(b.branches[i].keyword) + " (" + w.text + ")" + rest.text, w.args + rest.args))
  {
    var open := if i == 0 then "(" else " UNION " + ToUpper(b.branches[i].keyword) + " (";
    assert UnionWriteTo(b, i) == Ok(Lit(open).Then(w).Then(Lit(")")).Then(rest));
    Bracketed(open, w, rest);
  }

  lemma Bracketed(open: string, w: Writer, rest: Writer)
    ensures Lit(open).Then(w).Then(Lit(")")).Then(rest) == Writer(open + w.text + ")" + rest.text, w.args + rest.args)
  {
    assert [] + w.args + [] + rest.args == w.args + rest.args;
  }

  /** A UNION of two queries: each member parenthesised, joined by
      ` UNION <KEYWORD> `, the arguments of the first member then those of
      the second. */
  lemma UnionOfTwo(b: Builder, w0: Writer, w1: Writer)
    requires b.kind == UnionKind && b.limitation.None? && |b.branches| == 2
    requires WriteTo(b.branches[0].query) == Ok(w0)
    requires WriteTo(b.branches[1].query) == Ok(w1)
    ensures WriteTo(b) == Ok(Writer(
      "(" + w0.text + ") UNION " + ToUpper(b.branches[1].keyword) + " (" + w1.text + ")",
      w0.args + w1.args))
  {
    var k := ToUpper(b.branches[1].keyword);
    assert UnionWriteTo(b, 2) == Ok(Empty);
    UnionStep(b, 1, w1, Empty);
    var second := Writer(" UNION " + k + " (" + w1.text + ")" + "", w1.args + []);
    UnionStep(b, 0, w0, second);
    assert WriteTo(b) == UnionWriteTo(b, 0);
    assert w1.args + [] == w1.args;
    UnionText(w0.text, k, w1.text);
  }

  lemma UnionText(t0: string, k: string, t1: string)
    ensures "(" + t0 + ")" + (" UNION " + k + " (" + t1 + ")" + "") == "(" + t0 + ") UNION " + k + " (" + t1 + ")"
  {
  }

  /** An unaliased derived table under a valid outer filter cannot be
      referred to: the render fails, unless the builder is flagged nested. */
  lemma UnnamedDerivedTableFails(b: Builder)
    requires b.kind == SelectKind && b.limitation.None? && !b.nested
    requires b.source.Derived? && b.source.alias == "" && b.cond.IsValid()
    ensures WriteTo(b) == Fail(UnnamedDerivedTable)
  {
    assert FromWriteTo(b) == Fail(UnnamedDerivedTable);
    assert SelectWriteTo(b) == Fail(UnnamedDerivedTable);
  }

  /** Outer and inner builders that both name a dialect must name the same. */
  lemma InconsistentDialectFails(b: Builder)
    requires b.kind == SelectKind && b.limitation.None? && b.source.Derived?
    requires b.source.alias != "" || !b.cond.IsValid() || b.nested
    requires b.dialect != "" && b.source.query.dialect != "" && b.dialect != b.source.query.dialect
    ensures WriteTo(b) == Fail(InconsistentDialect)
  {
    assert FromWriteTo(b) == Fail(InconsistentDialect);
    assert SelectWriteTo(b) == Fail(InconsistentDialect);
  }

  /** Only a SELECT or UNION may stand as a derived table. */
  lemma UnexpectedSubQueryFails(b: Builder)
    requires b.kind == SelectKind && b.limitation.None? && b.source.Derived?
    requires b.source.alias != "" || !b.cond.IsValid() || b.nested
    requires b.source.query.dialect == "" || b.dialect == "" || b.source.query.dialect == b.dialect
    requires !b.source.query.kind.IsQuery()
    ensures WriteTo(b) == Fail(UnexpectedSubQuery)
  {
    assert FromWriteTo(b) == Fail(UnexpectedSubQuery);
    assert SelectWriteTo(b) == Fail(UnexpectedSubQuery);
  }

  /** A SELECT with no FROM at all is refused. */
  lemma NoTableNameFails(b: Builder)
    requires b.kind == SelectKind && b.limitation.None? && b.source.NoSource?
    ensures WriteTo(b) == Fail(NoTableName)
  {
    assert FromWriteTo(b) == Fail(NoTableName);
    assert SelectWriteTo(b) == Fail(NoTableName);
  }

  /** A dialect on the outer builder changes nothing in its render when the
      inner one has none or the same: the output equals the dialect-less one. */
  lemma DialectIrrelevant(b: Builder)
    requires b.kind == SelectKind && b.limitation.None?
    requires b.source.Derived? ==> b.source.query.dialect == "" || b.source.query.dialect == b.dialect
    ensures WriteTo(b) == WriteTo(b.(dialect := ""))
  {
    var e := b.(dialect := "");
    assert FromWriteTo(b) == FromWriteTo(e);
    assert SelectWriteTo(b) == SelectWriteTo(e);
  }
}

=== FILE: text.dfy ===
/** String helpers the pagination engine relies on: Go's strings.TrimSpace,
    strings.ToLower, strings.Join, decimal formatting of integers, 64-bit
    wrap-around of Go's `int`, and a count of `?` placeholders. */
module Text {

  /** Go's unicode.IsSpace: ASCII white space, NEL, NBSP and the Unicode
      space separators. */
  predicate IsSpace(c: char) {
    var n := c as int;
    || n == 0x20
    || (0x09 <= n <= 0x0D)
    || n == 0x85
    || n == 0xA0
    || n == 0x1680
    || (0x2000 <= n <= 0x200A)
    || n == 0x2028
    || n == 0x2029
    || n == 0x202F
    || n == 0x205F
    || n == 0x3000
  }

  /** Drops leading white space: the result is the longest suffix of `s`
      that does not start with a space. */
  function TrimLeft(s: string): (r: string)
    ensures |r| <= |s| && r == s[|s| - |r|..]
    ensures forall k :: 0 <= k < |s| - |r| ==> IsSpace(s[k])
    ensures r == [] || !IsSpace(r[0])
  {
    if |s| > 0 && IsSpace(s[0]) then TrimLeft(s[1..]) else s
  }

  /** Drops trailing white space: the result is the longest prefix of `s`
      that does not end with a space. */
  function TrimRight(s: string): (r: string)
    ensures |r| <= |s| && r == s[..|r|]
    ensures forall k :: |r| <= k < |s| ==> IsSpace(s[k])
    ensures r == [] || !IsSpace(r[|r| - 1])
  {
    if |s| > 0 && IsSpace(s[|s| - 1]) then TrimRight(s[..|s| - 1]) else s
  }

  /** Go's strings.TrimSpace. */
  function TrimSpace(s: string): (r: string)
    ensures r == [] || (!IsSpace(r[0]) && !IsSpace(r[|r| - 1]))
  {
    TrimRight(TrimLeft(s))
  }

  /** Go's `strings.TrimSpace(s) == ""`. */
  predicate Blank(s: string) {
    TrimSpace(s) == ""
  }

  /** A string trims to nothing exactly when every character is white space. */
  lemma BlankIffAllSpace(s: string)
    ensures Blank(s) <==> forall k :: 0 <= k < |s| ==> IsSpace(s[k])
  {
  }

  /** Go's unicode.ToLower restricted to ASCII letters. */
  function LowerChar(c: char): char {
    if 'A' <= c <= 'Z' then (c as int + 32) as char else c
  }

  /** Go's unicode.ToUpper restricted to ASCII letters. */
  function UpperChar(c: char): char {
    if 'a' <= c <= 'z' then (c as int - 32) as char else c
  }

  function ToLower(s: string): (r: string)
    ensures |r| == |s|
  {
    seq(|s|, i requires 0 <= i < |s| => LowerChar(s[i]))
  }

  function ToUpper(s: string): (r: string)
    ensures |r| == |s|
  {
    seq(|s|, i requires 0 <= i < |s| => UpperChar(s[i]))
  }

  /** The normal form the engine matches a style against:
      strings.ToLower(strings.TrimSpace(s)). */
  function Normalize(s: string): string {
    ToLower(TrimSpace(s))
  }

  /** Lower-casing neither creates nor removes white space. */
  lemma LowerKeepsSpace(c: char)
    ensures IsSpace(LowerChar(c)) <==> IsSpace(c)
  {
  }

  /** A normalized string is its own normal form: matching the style a second
      time changes nothing. */
  lemma {:induction false} NormalizeIdempotent(s: string)
    ensures Normalize(Normalize(s)) == Normalize(s)
  {
    var t := TrimSpace(s);
    var n := ToLower(t);
    if |n| > 0 {
      LowerKeepsSpace(t[0]);
      LowerKeepsSpace(t[|t| - 1]);
      assert !IsSpace(n[0]) && !IsSpace(n[|n| - 1]);
    }
    assert TrimLeft(n) == n;
    assert TrimRight(n) == n;
    assert TrimSpace(n) == n;
    assert ToLower(n) == n;
  }

  /** Go's strings.Join. */
  function Join(xs: seq<string>, sep: string): (r: string)
    ensures |xs| == 1 ==> r == xs[0]
  {
    if |xs| == 0 then ""
    else if |xs| == 1 then xs[0]
    else xs[0] + sep + Join(xs[1..], sep)
  }

  /** Appending an element to a non-empty list appends the separator and
      the element to the joined text. */
  lemma {:induction false} JoinSnoc(xs: seq<string>, x: string, sep: string)
    requires |xs| > 0
    ensures Join(xs + [x], sep) == Join(xs, sep) + sep + x
  {
    if |xs| > 1 {
      assert (xs + [x])[1..] == xs[1..] + [x];
      JoinSnoc(xs[1..], x, sep);
    }
  }

  /** Number of `?` placeholders in a piece of SQL text. */
  function Holes(s: string): nat {
    if |s| == 0 then 0 else (if s[0] == '?' then 1 else 0) + Holes(s[1..])
  }

  /** Placeholders of concatenated text are those of its parts. */
  lemma {:induction false} HolesAppend(a: string, b: string)
    ensures Holes(a + b) == Holes(a) + Holes(b)
  {
    if |a| > 0 {
      assert (a + b)[1..] == a[1..] + b;
      HolesAppend(a[1..], b);
    } else {
      assert a + b == b;
    }
  }

  /** Text without any placeholder of its own. */
  predicate Plain(s: string) {
    '?' !in s
  }

  lemma {:induction false} PlainHoles(s: string)
    requires Plain(s)
    ensures Holes(s) == 0
  {
    if |s| > 0 {
      assert s[0] != '?';
      assert s == [s[0]] + s[1..];
      PlainHoles(s[1..]);
    }
  }

  /** Joining plain parts with a plain separator yields plain text. */
  lemma {:induction false} JoinPlain(xs: seq<string>, sep: string)
    requires Plain(sep)
    requires forall i :: 0 <= i < |xs| ==> Plain(xs[i])
    ensures Plain(Join(xs, sep))
  {
    if |xs| > 1 {
      JoinPlain(xs[1..], sep);
    }
  }

  lemma UpperPlain(s: string)
    requires Plain(s)
    ensures Plain(ToUpper(s))
  {
    var u := ToUpper(s);
    forall k | 0 <= k < |u|
      ensures u[k] != '?'
    {
      assert s[k] != '?';
    }
  }

  const Int64Min: int := -0x8000_0000_0000_0000
  const Int64Limit: int := 0x8000_0000_0000_0000

  /** Go's `int` on a 64-bit platform. */
  type Int64 = x: int | Int64Min <= x < Int64Limit

  /** Two's-complement wrap-around of a Go `int` addition (64-bit platform). */
  function Wrap64(x: int): (r: Int64)
    ensures (r - x) % (2 * Int64Limit) == 0
    ensures Int64Min <= x < Int64Limit ==> r == x
  {
    (x - Int64Min) % (2 * Int64Limit) + Int64Min
  }

  function Digit(d: nat): char
    requires d < 10
  {
    "0123456789"[d]
  }

  predicate IsDigit(c: char) {
    '0' <= c <= '9'
  }

  /** Decimal digits of a natural number, most significant first. */
  function NatToString(n: nat): (r: string)
    ensures |r| > 0
    ensures forall i :: 0 <= i < |r| ==> IsDigit(r[i])
    decreases n
  {
    if n < 10 then [Digit(n)] else NatToString(n / 10) + [Digit(n % 10)]
  }

  /** Decimal digits, optionally preceded by a minus sign. */
  predicate Numeral(s: string) {
    |s| > 0 && forall k :: 0 <= k < |s| ==> IsDigit(s[k]) || (k == 0 && s[k] == '-')
  }

  /** fmt's %d / %v rendering of an integer. */
  function IntToString(i: int): (r: string)
    ensures Numeral(r)
  {
    if i < 0 then "-" + NatToString(-i) else NatToString(i)
  }

  /** The value of a string of decimal digits. */
  function ParseNat(s: string): int
    requires forall i :: 0 <= i < |s| ==> IsDigit(s[i])
  {
    if |s| == 0 then 0
    else 10 * ParseNat(s[..|s| - 1]) + (s[|s| - 1] as int - '0' as int)
  }

  /** Inverse of IntToString. */
  function ParseInt(s: string): int
    requires Numeral(s)
  {
    if s[0] == '-' then -ParseNat(s[1..]) else ParseNat(s)
  }

  lemma {:induction false} NatRoundTrip(n: nat)
    ensures ParseNat(NatToString(n)) == n
    decreases n
  {
    var s := NatToString(n);
    if n >= 10 {
      NatRoundTrip(n / 10);
      assert s[..|s| - 1] == NatToString(n / 10);
    }
  }

  /** Decimal rendering loses nothing: the printed number parses back. */
  lemma {:induction false} IntRoundTrip(i: int)
    ensures ParseInt(IntToString(i)) == i
  {
    var n: nat := if i < 0 then -i else i;
    var t := NatToString(n);
    assert ParseNat(t) == n by {
      NatRoundTrip(n);
    }
    if i < 0 {
      assert IntToString(i) == "-" + t;
      NegativeParse(t);
    } else {
      assert IntToString(i) == t;
      DigitsParse(t);
    }
  }

  lemma NegativeParse(t: string)
    requires |t| > 0 && forall k :: 0 <= k < |t| ==> IsDigit(t[k])
    ensures ParseInt("-" + t) == -ParseNat(t)
  {
    assert ("-" + t)[1..] == t;
  }

  lemma DigitsParse(t: string)
    requires |t| > 0 && forall k :: 0 <= k < |t| ==> IsDigit(t[k])
    ensures ParseInt(t) == ParseNat(t)
  {
    assert IsDigit(t[0]);
  }

  /** Decimal renderings are distinct for distinct integers. */
  lemma IntToStringInjective(i: int, j: int)
    requires IntToString(i) == IntToString(j)
    ensures i == j
  {
    IntRoundTrip(i);
    IntRoundTrip(j);
  }

  /** A printed integer contains no placeholder. */
  lemma IntToStringPlain(i: int)
    ensures Plain(IntToString(i))
  {
    var r := IntToString(i);
    forall k | 0 <= k < |r|
      ensures r[k] != '?'
    {
    }
  }

  /** The index of the first space in `s`, or |s| when there is none. */
  function SpaceAt(s: string): (k: nat)
    ensures k <= |s|
    ensures forall i :: 0 <= i < k ==> s[i] != ' '
    ensures k < |s| ==> s[k] == ' '
  {
    if |s| == 0 || s[0] == ' ' then 0 else 1 + SpaceAt(s[1..])
  }

  /** A printed integer ends at the first space after it. */
  lemma SpaceAfterNumeral(i: int, rest: string)
    requires rest == [] || rest[0] == ' '
    ensures SpaceAt(IntToString(i) + rest) == |IntToString(i)|
  {
    var t := IntToString(i);
    var s := t + rest;
    assert forall j :: 0 <= j < |t| ==> s[j] == t[j] && s[j] != ' ';
    assert |t| < |s| ==> s[|t|] == rest[0];
  }
}
